=== FILE: README.md ===
# Multinomial Naive Bayes text classifier — a Dafny model

This project models the core of a small Java text classifier. There are three
parts:

- **Feature extraction** (`FeatureExtraction.java`). It counts documents per
  category and, for every token, the documents of each category that contain
  it. It then selects the tokens whose chi-square statistic against some
  category reaches a critical level.
- **The classifier** (`NaiveBayes.java`). It turns a map from category to
  example texts into labelled documents and keeps the selected features. From
  these it trains a knowledge base:
  - the log prior of each category, either estimated from the sample or given
    by the caller and validated;
  - add-one (Laplace) smoothed log likelihoods.

  To predict, it picks the first category, in iteration order, with the
  highest log posterior score.
- **Ranking** (`Prediction.java`). It orders (category, score) pairs by
  descending score in a tree set, and its comparison ignores the category.

The modules follow the source files:

| file | module | models |
|---|---|---|
| `collections.dfy` | `Collections` | `Option`, `Outcome`, an `OrderedMap` that stands for an iterated hash map, and sums over maps |
| `dataobjects.dfy` | `DataObjects` | `Document`, `FeatureStats`, `KnowledgeBase` and their well-formedness |
| `featureextraction.dfy` | `FeatureExtraction` | `extractFeatureStats` and `chisquare` |
| `naivebayes.dfy` | `NaiveBayes` | `preprocessDataset`, `selectFeatures`, both `train` methods and `predict` |
| `prediction.dfy` | `Predictions` | `compareTo` and `toValueSortedPredictions` |

**Iteration order.** Several results depend on the order in which a hash map
is iterated:

- the first maximal category wins a prediction;
- the first prior that fails validation names the error;
- the first inserted prediction survives a ranking tie.

An `OrderedMap` pairs a map with such an order. The model fixes the order to
first-insertion order. Every property stated for an arbitrary `OrderedMap`
holds for every iteration order.

**Counting.** Counts are written against independent reference definitions
over the dataset:

- `Labelled`: documents with a given label;
- `Containing`: documents that contain a feature;
- `Holding`: documents with the label that contain the feature;
- `Neither`: documents with neither.

The extraction fold is proved equal to these counts. The chi-square contingency
table is proved to consist of exactly these four cells.

**Behaviour the model keeps as the code has it**, although a reader of the
method names might expect otherwise:

- A document adds one to a feature's joint count, however often the token
  occurs in it. The loop at `FeatureExtraction.java:64-80` visits each distinct
  token once.
- Given priors are checked by number only (`NaiveBayes.java:196`); their
  categories are never compared with the observed ones. Priors `{"x": 0.5}`
  on a dataset whose only category is "a" train successfully, and `predict`
  can then answer "x". `NaiveBayes.FitPriors` and `NaiveBayes.TrainOutcome`
  state this exactly.
- Categories with equal scores collapse in the ranking: the tree set keeps
  only the first one inserted (`Prediction.java:40-44`), so the ranking can
  be shorter than the map (`Predictions.TieCollapseExample`).
- `train` installs a new knowledge base (`NaiveBayes.java:171`) before it
  validates the given priors. A call that throws therefore leaves the
  classifier holding a knowledge base with no likelihoods and only the priors
  accepted before the failure. This is listed under Findings.

## Model

| member | source | states |
|---|---|---|
| `FeatureExtraction.Increment` | src/com/datumbox/opensource/features/FeatureExtraction.java:56-62 | the count of the key goes up by one and is created at one; every other count stays the same; the iteration order stays duplicate-free |
| `FeatureExtraction.ExtractFeatureStats` | src/com/datumbox/opensource/features/FeatureExtraction.java:50-51 | the number of observations equals the number of documents |
| `FeatureExtraction.CountTokens` | src/com/datumbox/opensource/features/FeatureExtraction.java:64-81 | after one document's tokens the table holds exactly the old features plus the document's; rows of features not in the document are unchanged; the iteration order stays duplicate-free |
| `FeatureExtraction.AddDocument` | src/com/datumbox/opensource/features/FeatureExtraction.java:50-81 | one document adds one observation and one to its category's count, leaves other categories' counts alone, adds exactly its tokens as features and leaves the rows of other features alone |
| `FeatureExtraction.CountTokensEffect` | src/com/datumbox/opensource/features/FeatureExtraction.java:64-80 | one document's tokens add exactly its features to the table; each of their rows gains one for the document's category, once per document; other rows stay the same |
| `FeatureExtraction.CategoryCountsAreLabels` | src/com/datumbox/opensource/features/FeatureExtraction.java:56-62 | the count of a category is the number of documents labelled with it; a category is present exactly when that number is positive |
| `FeatureExtraction.JointFeaturesAreContained` | src/com/datumbox/opensource/features/FeatureExtraction.java:64-72 | a feature has a row exactly when some document contains it; every row is a well-formed map |
| `FeatureExtraction.JointCountsAreHoldings` | src/com/datumbox/opensource/features/FeatureExtraction.java:74-80 | the joint count of (feature, category) is the number of documents of that category that contain the feature; present exactly when positive |
| `FeatureExtraction.ExtractFeatureStatsCounts` | src/com/datumbox/opensource/features/FeatureExtraction.java:42-85 | all extracted counts equal the reference counts over the dataset |
| `FeatureExtraction.ExtractWellFormed` | src/com/datumbox/opensource/features/FeatureExtraction.java:42-85 | extracted statistics are well-formed: every count is at least one; a joint count never exceeds its category's count; rows name only known categories |
| `FeatureExtraction.CategoryCountsSumToN` | src/com/datumbox/opensource/features/FeatureExtraction.java:51-62 | the category counts add up to the number of observations |
| `FeatureExtraction.JointCountsBounded` | src/com/datumbox/opensource/features/FeatureExtraction.java:110-116 | a row's total (N1.) is the number of documents that contain the feature, so N0. = n - N1. is never negative |
| `FeatureExtraction.ContingencyTable` | src/com/datumbox/opensource/features/FeatureExtraction.java:116-124 | derives the four cells from the counts as the loop does; that they sum to n is an identity for any statistics, and their meaning for a dataset is stated by `ContingencyOfExtracted` |
| `FeatureExtraction.CellsPartitionDataset` | src/com/datumbox/opensource/features/FeatureExtraction.java:116-124 | every document falls in exactly one cell (inclusion-exclusion over the reference counts) |
| `FeatureExtraction.ContingencyOfExtracted` | src/com/datumbox/opensource/features/FeatureExtraction.java:118-124 | for extracted statistics the cells are the four document counts: N11 holding (at least one), N10 feature only, N01 category only, N00 neither; all non-negative |
| `FeatureExtraction.ChiSquareScore` | src/com/datumbox/opensource/features/FeatureExtraction.java:127 | the score is undefined (NaN) exactly when the denominator is zero |
| `FeatureExtraction.ZeroDenominatorMeansZeroNumerator` | src/com/datumbox/opensource/features/FeatureExtraction.java:127-130 | for extracted statistics the denominator is zero exactly when every document contains the feature or every document has the category; then the numerator is zero, so the score is NaN and is never selected |
| `FeatureExtraction.ScoreNonNegative` | src/com/datumbox/opensource/features/FeatureExtraction.java:127 | a defined score of extracted statistics is at least zero |
| `FeatureExtraction.PerfectIndicatorScoresN` | src/com/datumbox/opensource/features/FeatureExtraction.java:127 | a feature found in exactly the documents of one category (not all documents) scores n |
| `FeatureExtraction.MaxQualifying` | src/com/datumbox/opensource/features/FeatureExtraction.java:118-136 | the inner loop keeps a score exactly when some category reaches the level; the score kept is reached by some category and is the largest qualifying one |
| `FeatureExtraction.MaxQualifyingMonotone` | src/com/datumbox/opensource/features/FeatureExtraction.java:130-134 | a feature kept at a higher level is kept at a lower one with the same maximum |
| `FeatureExtraction.ChiSquare` | src/com/datumbox/opensource/features/FeatureExtraction.java:95-140 | a feature is selected exactly when some category's score reaches the critical level; its value is the largest such score and is attained (the `>=` test of line 130 is `Qualifies`) |
| `FeatureExtraction.ChiSquareMonotone` | src/com/datumbox/opensource/features/FeatureExtraction.java:130-134 | raising the critical level only removes features and leaves the values of the rest unchanged |
| `FeatureExtraction.Int32` | src/com/datumbox/opensource/features/FeatureExtraction.java:102 | an `int` result lies in the 32-bit range, agrees with the exact result modulo 2^32, and equals it when it fits |
| `FeatureExtraction.DenominatorAsWritten` | src/com/datumbox/opensource/features/FeatureExtraction.java:127 | the wrapped denominator is an `int` congruent to the exact denominator modulo 2^32, so it is zero whenever the exact one is a multiple of 2^32 |
| `FeatureExtraction.DifferenceAsWritten` | src/com/datumbox/opensource/features/FeatureExtraction.java:127 | the wrapped difference N11 N00 - N10 N01 is an `int` congruent to the exact difference modulo 2^32 |
| `FeatureExtraction.ChiSquareScoreAsWritten` | src/com/datumbox/opensource/features/FeatureExtraction.java:127-130 | the score as the source computes it is a finite double exactly when the wrapped denominator is non-zero; with a zero wrapped denominator it is +infinity exactly when n > 0 and the wrapped difference is non-zero, and NaN when the numerator is zero; a finite score over a negative wrapped denominator is never positive |
| `FeatureExtraction.AsWrittenAgreesOnSmallTables` | src/com/datumbox/opensource/features/FeatureExtraction.java:127 | with at most 430 documents the wrapped products equal the exact ones, the score as written is NaN where the exact score is undefined and the same finite value otherwise |
| `FeatureExtraction.DenominatorOverflowExample` | src/com/datumbox/opensource/features/FeatureExtraction.java:127-130 | a perfect indicator over 500 of 1000 documents scores 1000 exactly, but as written its denominator wraps negative, its score is below zero and it fails the `>=` test at every non-negative level |
| `FeatureExtraction.FirstWrapExample` | src/com/datumbox/opensource/features/FeatureExtraction.java:127 | the 430-document bound is tight: with 431 documents, a feature in exactly the 216 documents of one category has an exact denominator above 2^31 - 1, and its `int` product wraps negative |
| `FeatureExtraction.DenominatorWrapsToZeroExample` | src/com/datumbox/opensource/features/FeatureExtraction.java:127-130 | a perfect indicator over 256 of 512 documents scores 512 exactly, but its denominator 2^32 wraps to zero, so as written the score is +infinity and passes every level |
| `Predictions.CompareScores` | src/com/datumbox/opensource/dataobjects/Prediction.java:59 | a three-way comparison of scores: negative, zero or positive as the first is smaller, equal or larger |
| `Predictions.CompareTo` | src/com/datumbox/opensource/dataobjects/Prediction.java:57-60 | the larger score comes first; predictions with equal scores compare equal whatever their categories |
| `Predictions.CompareToIsTotalPreorder` | src/com/datumbox/opensource/dataobjects/Prediction.java:57-60 | the ordering is antisymmetric and transitive, and equal elements are interchangeable, as a tree set requires |
| `Predictions.CompareToIgnoresCategory` | src/com/datumbox/opensource/dataobjects/Prediction.java:57-60 | example of `CompareTo`'s contract: two different predictions with the same score compare equal |
| `Predictions.Insert` | src/com/datumbox/opensource/dataobjects/Prediction.java:43 | the descent through the ordered set loses no element, adds nothing but the new prediction, and grows the set by at most one |
| `Predictions.Add` | src/com/datumbox/opensource/dataobjects/Prediction.java:43 | tree-set insertion keeps the set in descending score order; a prediction whose score is already present is dropped; otherwise it is added and nothing else changes |
| `Predictions.Insertions` | src/com/datumbox/opensource/dataobjects/Prediction.java:42-44 | inserting the entries one by one in iteration order yields a strictly descending set |
| `Predictions.Representatives` | src/com/datumbox/opensource/dataobjects/Prediction.java:42-44 | the categories that survive are categories of the map and carry every score the map has |
| `Predictions.RepresentativeIsFirst` | src/com/datumbox/opensource/dataobjects/Prediction.java:42-44 | a category survives exactly when no category before it in iteration order has its score |
| `Predictions.InsertionsCarryScores` | src/com/datumbox/opensource/dataobjects/Prediction.java:42-44 | the scores in the set are exactly the scores of the inserted entries |
| `Predictions.InsertionsHoldRepresentatives` | src/com/datumbox/opensource/dataobjects/Prediction.java:42-44 | the set holds exactly the surviving categories, each with its own score |
| `Predictions.ToValueSortedPredictions` | src/com/datumbox/opensource/dataobjects/Prediction.java:39-47 | the result is strictly descending by score; its scores are exactly the map's values; its members are exactly the first-iterated category of each score, with its score; an empty map gives an empty set |
| `Predictions.RankingSizeIsDistinctScores` | src/com/datumbox/opensource/dataobjects/Prediction.java:39-47 | the result has as many elements as the map has distinct values |
| `Predictions.RankingExample` | src/com/datumbox/opensource/dataobjects/Prediction.java:39-47 | three categories with distinct scores come out in descending score order |
| `Predictions.TieCollapseExample` | src/com/datumbox/opensource/dataobjects/Prediction.java:39-47 | of two categories with equal scores only the first iterated one remains |
| `NaiveBayes.Tokenized` | src/com/datumbox/opensource/classifiers/NaiveBayes.java:107-112 | each example becomes one document, in order, labelled with its category and holding the tokenizer's counts |
| `NaiveBayes.PreprocessDataset` | src/com/datumbox/opensource/classifiers/NaiveBayes.java:91-120 | when the tokenizer yields well-formed token maps, every document of the dataset is well-formed (the nested loop of lines 99-117 is `TokenizedAll`) |
| `NaiveBayes.TokenizedAllLabels` | src/com/datumbox/opensource/classifiers/NaiveBayes.java:99-117 | over distinct categories, the documents labelled c are as many as c's examples, and zero for a category not listed |
| `NaiveBayes.PreprocessCountsExamples` | src/com/datumbox/opensource/classifiers/NaiveBayes.java:91-120 | the dataset holds one document labelled c per example of c, and none for an absent category |
| `NaiveBayes.PreprocessCountsAllExamples` | src/com/datumbox/opensource/classifiers/NaiveBayes.java:99-117 | preprocessing builds exactly one document per example: the length of the dataset is the total number of examples over all categories |
| `NaiveBayes.SelectFeatures` | src/com/datumbox/opensource/classifiers/NaiveBayes.java:130-151 | pruning keeps n and the category counts; it keeps a feature's row unchanged exactly when chi-square selects the feature; the result stays well-formed |
| `NaiveBayes.SelectedFeatures` | src/com/datumbox/opensource/classifiers/NaiveBayes.java:137-148 | a feature survives exactly when some document contains it and some category's score reaches the critical level |
| `NaiveBayes.PriorError` | src/com/datumbox/opensource/classifiers/NaiveBayes.java:205-210 | a given prior is accepted exactly when it is present and lies in [0, 1]; a missing (null) prior is reported as missing, and a present prior below 0 or above 1 as out of range |
| `NaiveBayes.AcceptedCount` | src/com/datumbox/opensource/classifiers/NaiveBayes.java:202-210 | every prior before the count passes validation; the one at the count, if any, is null or outside [0, 1] |
| `NaiveBayes.AllAccepted` | src/com/datumbox/opensource/classifiers/NaiveBayes.java:202-210 | the loop runs to the end exactly when every given prior is valid |
| `NaiveBayes.LoadPriors` | src/com/datumbox/opensource/classifiers/NaiveBayes.java:200-213 | the loaded priors are the accepted prefix in order, each the log of its given probability; loading succeeds exactly when all priors are valid; otherwise the error is that of the first invalid one |
| `NaiveBayes.EstimatePriors` | src/com/datumbox/opensource/classifiers/NaiveBayes.java:179-189 | one prior per observed category, in order, each the log of its count over n (the division of line 188 is `Frequency`) |
| `NaiveBayes.FrequencySumIsRatio` | src/com/datumbox/opensource/classifiers/NaiveBayes.java:188 | the estimated frequencies add up to the total count over n |
| `NaiveBayes.EstimatedPriorsSumToOne` | src/com/datumbox/opensource/classifiers/NaiveBayes.java:177-189 | for a non-empty dataset the estimated prior probabilities add up to one |
| `NaiveBayes.MassOver` | src/com/datumbox/opensource/classifiers/NaiveBayes.java:221-229 | with non-negative joint counts, the occurrence mass of a category over any list of features is non-negative |
| `NaiveBayes.FeatureMass` | src/com/datumbox/opensource/classifiers/NaiveBayes.java:216-230 | with non-negative joint counts, the mass of a category over all retained features bounds the joint count of each of them |
| `NaiveBayes.MassBoundsCount` | src/com/datumbox/opensource/classifiers/NaiveBayes.java:216-230 | a category's feature-occurrence mass is non-negative and at least the joint count of each feature |
| `NaiveBayes.LikelihoodTable` | src/com/datumbox/opensource/classifiers/NaiveBayes.java:232-253 | a feature gets a row exactly when it was selected and there is at least one prior; every row covers exactly the prior categories; each entry is the log of (count + 1) / (mass + d) (the inner loop of lines 239-250 is `LikelihoodRow`; the ratio of line 247 is `SmoothedRatio`, applied to one feature and category by `LikelihoodRatio`) |
| `NaiveBayes.SmoothedRatioIsProbability` | src/com/datumbox/opensource/classifiers/NaiveBayes.java:247 | each smoothed likelihood lies in (0, 1], so its log is defined |
| `NaiveBayes.RatioSumClosedForm` | src/com/datumbox/opensource/classifiers/NaiveBayes.java:216-247 | the smoothed ratios over a list of features add up to (mass over those features + their number) / (mass + d) |
| `NaiveBayes.LikelihoodsSumToOne` | src/com/datumbox/opensource/classifiers/NaiveBayes.java:216-253 | with a non-empty vocabulary, each category's smoothed likelihoods add up to one |
| `NaiveBayes.Fit` | src/com/datumbox/opensource/classifiers/NaiveBayes.java:171-253 | n and d come from the statistics; the result is dense; a failed validation leaves no likelihoods; a successful one leaves exactly the smoothed table |
| `NaiveBayes.FitPriors` | src/com/datumbox/opensource/classifiers/NaiveBayes.java:176-214 | without priors: success, with estimated log priors over the observed categories. With priors: c is their number; success exactly when the number matches and all are valid; a count mismatch is the error exactly when the numbers differ; stored priors are valid given ones |
| `NaiveBayes.Train` | src/com/datumbox/opensource/classifiers/NaiveBayes.java:161-255 | training keeps the critical value and always installs a dense knowledge base whose n is the number of documents preprocessing builds, one per example (`PreprocessCountsAllExamples`) |
| `NaiveBayes.TrainEstimated` | src/com/datumbox/opensource/classifiers/NaiveBayes.java:263-265 | training without priors always succeeds and installs a dense knowledge base |
| `NaiveBayes.ObservedCategories` | src/com/datumbox/opensource/classifiers/NaiveBayes.java:163-167 | the counted categories are exactly those with at least one example, each counted once per example |
| `NaiveBayes.TrainOutcome` | src/com/datumbox/opensource/classifiers/NaiveBayes.java:191-214 | training succeeds exactly when no priors are given, or their number equals the number of non-empty categories and all are in [0, 1]; on failure no likelihoods are stored and only valid priors are |
| `NaiveBayes.EstimatedTrainPriors` | src/com/datumbox/opensource/classifiers/NaiveBayes.java:177-189 | estimated priors cover exactly the non-empty categories; each is the log of its example count over n |
| `NaiveBayes.TrainedLikelihoods` | src/com/datumbox/opensource/classifiers/NaiveBayes.java:173-253 | d is the number of selected features; a successful training stores the smoothed table over them |
| `NaiveBayes.Leader` | src/com/datumbox/opensource/classifiers/NaiveBayes.java:289-315 | there is no winner exactly when there are no categories; the winner is a listed category with the highest score |
| `NaiveBayes.LeaderIsFirstMaximum` | src/com/datumbox/opensource/classifiers/NaiveBayes.java:311-314 | with the strict comparison, the winner is the first category in iteration order with the highest score |
| `NaiveBayes.Evidence` | src/com/datumbox/opensource/classifiers/NaiveBayes.java:298-308 | a document none of whose tokens is in the vocabulary adds nothing to a score |
| `NaiveBayes.EvidenceNonPositive` | src/com/datumbox/opensource/classifiers/NaiveBayes.java:298-308 | tokens with non-negative counts and log likelihoods at most zero (likelihoods at most one) can only lower a score |
| `NaiveBayes.CategoryScore` | src/com/datumbox/opensource/classifiers/NaiveBayes.java:293-308 | a category's score is its log prior when no token of the text is in the vocabulary, and never above its log prior when every known token's log likelihood is at most zero |
| `NaiveBayes.Scores` | src/com/datumbox/opensource/classifiers/NaiveBayes.java:293-309 | every prior category, and only those, is scored |
| `NaiveBayes.Predict` | src/com/datumbox/opensource/classifiers/NaiveBayes.java:275-318 | missing knowledge base exactly when untrained; no category exactly when there are no priors; otherwise a prior category whose score is maximal |
| `NaiveBayes.PredictFirstMaximum` | src/com/datumbox/opensource/classifiers/NaiveBayes.java:289-317 | the predicted category is the first in iteration order with the maximal score |
| `NaiveBayes.EvidenceReadsKnownCounts` | src/com/datumbox/opensource/classifiers/NaiveBayes.java:298-307 | the evidence depends only on the counts of tokens in the vocabulary |
| `NaiveBayes.UnknownTokenIgnored` | src/com/datumbox/opensource/classifiers/NaiveBayes.java:301-303 | adding a token outside the vocabulary leaves every category's score unchanged |
| `NaiveBayes.PredictIgnoresUnknownToken` | src/com/datumbox/opensource/classifiers/NaiveBayes.java:298-303 | adding a token outside the vocabulary leaves the prediction unchanged |
| `NaiveBayes.EvidenceWithoutVocabulary` | src/com/datumbox/opensource/classifiers/NaiveBayes.java:298-307 | with no likelihoods the evidence of any document is zero |
| `NaiveBayes.EmptyVocabularyPicksHighestPrior` | src/com/datumbox/opensource/classifiers/NaiveBayes.java:293-315 | with no likelihoods the prediction is the first category with the highest prior |
| `NaiveBayes.FailedTrainLosesVocabulary` | src/com/datumbox/opensource/classifiers/NaiveBayes.java:171-214 | as written, a failed training of a classifier that had likelihoods drops them all, so the classifier changes |
| `NaiveBayes.FailedTrainExample` | src/com/datumbox/opensource/classifiers/NaiveBayes.java:171-198 | a loaded classifier predicting "spam" is retrained with one prior on an empty dataset; training fails with a count mismatch, after which it predicts no category |
| `NaiveBayes.TrainAtomic` | src/com/datumbox/opensource/classifiers/NaiveBayes.java:161-255 | corrected training: it succeeds under the same conditions as the source; a failure leaves the classifier unchanged; a success installs a dense knowledge base |

## Left out

- Tokenisation (`TextTokenizer`) is not part of this model. It is a parameter
  `tokenize` that must return a well-formed token map.
- `Math.log` is a parameter `log` of the operations. No property of the
  logarithm is assumed; the properties are stated for the values before the
  logarithm.
- Floating point: scores, priors and likelihoods are exact reals, and
  rounding is never modelled. Only the chi-square score as written
  (`FeatureExtraction.ChiSquareScoreAsWritten`) models Java's `int` wrap of
  both the difference and the denominator of line 127, and the IEEE-754
  outcomes of its division: +infinity, -infinity and NaN, compared with `>=`
  as `FeatureExtraction.AtLeast`.
- Java `int` arithmetic is otherwise unbounded. `FeatureExtraction.ChiSquare`,
  `NaiveBayes.SelectFeatures` and `NaiveBayes.Train` use the exact
  `FeatureExtraction.ChiSquareScore`. From 431 documents on, where the
  denominator can wrap (`FeatureExtraction.FirstWrapExample`), these three
  can therefore select different features from the source (see Findings).
  Counts and sums could wrap only for more than 2^31 documents.
- Hash-map iteration order is first-insertion order rather than hash order.
  No property depends on which order is chosen.
- Getters, setters, `Document`/`FeatureStats`/`NaiveBayesKnowledgeBase` field
  initialisation and knowledge-base persistence are left out. Those classes
  are not part of this model. A new knowledge base is taken to start with
  empty prior and likelihood maps, which is what line 212 relies on.
- `NaiveBayes.Untrained` and `NaiveBayes.Loaded` model the two constructors
  (`NaiveBayes.java:47-56`). They only build a value and carry no contract.
  The critical-value setter is the `chisquareCriticalValue` field of
  `Classifier`; the getters are left out.
- FeatureExtraction.ChiSquareScore: a zero denominator is always `None`
  (NaN). For arbitrary statistics with a non-zero numerator, floating point
  gives +infinity, which would pass the threshold.
  `ZeroDenominatorMeansZeroNumerator` shows that the exact denominator of
  statistics built from a dataset is zero only with a zero numerator. The
  wrapped denominator the source computes can be zero with a non-zero
  numerator; `ChiSquareScoreAsWritten` models that case as +infinity (see
  Findings).
- NaiveBayes.LoadPriors: a NaN prior passes the source's range check (both
  comparisons are false). Reals have no NaN, so this case is absent.
- NaiveBayes.Predict: `predict` starts from negative infinity with a strict
  `>`. A category whose score is negative infinity (a prior of 0) can
  therefore never win, and if every score is negative infinity the source
  returns null. With reals there is no infinity, and the model returns a
  category whenever there are priors.
- NaiveBayes.Predict requires a loaded knowledge base to be dense (every
  likelihood row covers every prior category). Otherwise line 307 unboxes a
  null and throws, which the model does not represent. Every knowledge base
  that `Train` builds is dense.
- Predictions.CompareScores: `Double.compareTo` also orders -0.0 below 0.0
  and NaN above everything. Reals have neither.

## Findings

| source | as written | input that shows it | evidently intended | confidence | as-written member | corrected member |
|---|---|---|---|---|---|---|
| src/com/datumbox/opensource/features/FeatureExtraction.java:127 | the denominator `(N11+N01)*(N11+N10)*(N10+N00)*(N01+N00)` is an `int` product that wraps once it exceeds 2^31 - 1 (possible from 431 documents on) | 1000 documents, 500 of category c, exactly those containing feature f: the table is (500, 0, 0, 500), the exact score is 1000, the wrapped denominator is -1924509440, so the score is negative and f is dropped at 10.83. The wrap can also select a feature the exact statistic rejects: with 512 documents, 256 of them c and containing f, the denominator 2^32 wraps to 0 and the score is +infinity (`FeatureExtraction.DenominatorWrapsToZeroExample`), which passes every level, so at a critical level above 512 f is kept although its exact score is 512 | the statistic over the true product, so a perfect indicator scores n | high, not executed | `FeatureExtraction.DenominatorOverflowExample` | `FeatureExtraction.ChiSquareScore` |
| src/com/datumbox/opensource/classifiers/NaiveBayes.java:171 | a new knowledge base replaces the old one before the priors are validated, so a throwing `train` leaves a partial knowledge base behind | a classifier loaded with a knowledge base whose only prior is "spam" predicts "spam"; `train` with an empty dataset and priors {"spam": 1.0} throws (one prior, no observed category), and afterwards `predict` returns null | a call that throws leaves the classifier as it was | medium, not executed | `NaiveBayes.FailedTrainExample` | `NaiveBayes.TrainAtomic` |

=== FILE: collections.dfy ===
/**
 Small collection vocabulary shared by the classifier model.

 The classifier keeps all of its state in hash maps and, in several places, the
 order in which a map is iterated decides the result (the first maximal category
 wins a prediction, the first inserted prediction survives a ranking tie).  An
 `OrderedMap` is a map together with the order in which iterating it visits its
 keys; the model fixes that order to be first-insertion order.
 */
module Collections {

  datatype Option<+T> = None | Some(value: T)

  /** Success or a failure value, for operations that either complete or throw. */
  datatype Outcome<+E> = Pass | Fail(error: E)

  predicate Distinct<T(==)>(s: seq<T>) {
    forall i, j :: 0 <= i < j < |s| ==> s[i] != s[j]
  }

  /** The "get-or-zero" accessor used for every count that may be absent. */
  function Get0<K>(m: map<K, int>, k: K): int {
    if k in m then m[k] else 0
  }

  /** A map with its iteration order. */
  datatype OrderedMap<K(==,!new), V> = OrderedMap(keys: seq<K>, entries: map<K, V>) {

    /** The iteration order visits every entry exactly once. */
    ghost predicate Valid() {
      && Distinct(keys)
      && (forall k :: k in entries <==> k in keys)
    }

    /** Inserts or overwrites; a new key is visited last, an existing key keeps its place. */
    function Put(k: K, v: V): (r: OrderedMap<K, V>)
      ensures r.entries == entries[k := v]
      ensures k in entries ==> r.keys == keys
      ensures k !in entries ==> r.keys == keys + [k]
      ensures Valid() ==> r.Valid()
    {
      if k in entries then OrderedMap(keys, entries[k := v])
      else OrderedMap(keys + [k], entries[k := v])
    }

    /** Keeps only the keys in `keep`, in their original order. */
    function Restrict(keep: set<K>): (r: OrderedMap<K, V>)
      ensures forall k :: k in r.entries <==> k in entries && k in keep
      ensures forall k | k in r.entries :: r.entries[k] == entries[k]
      ensures forall k :: k in r.keys <==> k in keys && k in keep
      ensures Valid() ==> r.Valid()
    {
      OrderedMap(Filter(keys, keep), map k | k in entries && k in keep :: entries[k])
    }
  }

  function Empty<K(==,!new), V>(): (r: OrderedMap<K, V>)
    ensures r.Valid() && r.entries == map[]
  {
    OrderedMap([], map[])
  }

  /** The elements of `s` that lie in `keep`, in order. */
  function Filter<T(==,!new)>(s: seq<T>, keep: set<T>): (r: seq<T>)
    ensures forall x :: x in r <==> x in s && x in keep
    ensures |r| <= |s|
    ensures Distinct(s) ==> Distinct(r)
  {
    if |s| == 0 then []
    else
      var r' := Filter(s[..|s| - 1], keep);
      var x := s[|s| - 1];
      assert forall y :: y in s <==> y in s[..|s| - 1] || y == x;
      if x in keep then r' + [x] else r'
  }

  /** Sum of the (absent-as-zero) values of `m` at the keys of `keys`, in order. */
  function SumAt<K>(keys: seq<K>, m: map<K, int>): int {
    if |keys| == 0 then 0
    else SumAt(keys[..|keys| - 1], m) + Get0(m, keys[|keys| - 1])
  }

  /** Number of positions of `s` holding `x`. */
  function Occurrences<T(==)>(s: seq<T>, x: T): (k: nat)
    ensures k <= |s|
    ensures x !in s ==> k == 0
  {
    if |s| == 0 then 0
    else Occurrences(s[..|s| - 1], x) + (if s[|s| - 1] == x then 1 else 0)
  }

  lemma {:induction false} DistinctOccursOnce<T>(s: seq<T>, x: T)
    requires Distinct(s) && x in s
    ensures Occurrences(s, x) == 1
  {
    var p := s[..|s| - 1];
    if s[|s| - 1] == x {
      assert x !in p;
    } else {
      assert x in p;
      DistinctOccursOnce(p, x);
    }
  }

  /** A distinct sequence has as many elements as the set of its elements. */
  lemma {:induction false} DistinctCardinality<T(!new)>(s: seq<T>)
    requires Distinct(s)
    ensures |set x | x in s| == |s|
  {
    if |s| > 0 {
      var p := s[..|s| - 1];
      DistinctCardinality(p);
      assert (set x | x in s) == (set x | x in p) + {s[|s| - 1]};
      assert s[|s| - 1] !in (set x | x in p);
    }
  }

  lemma {:induction false} SumAtNonNegative<K>(keys: seq<K>, m: map<K, int>)
    requires forall k | k in m :: m[k] >= 0
    ensures SumAt(keys, m) >= 0
  {
    if |keys| > 0 {
      SumAtNonNegative(keys[..|keys| - 1], m);
    }
  }

  /** One value never exceeds the sum of non-negative values it is part of. */
  lemma {:induction false} SumAtBoundsElement<K>(keys: seq<K>, m: map<K, int>, k: K)
    requires forall j | j in m :: m[j] >= 0
    requires k in keys
    ensures Get0(m, k) <= SumAt(keys, m)
  {
    var p := keys[..|keys| - 1];
    SumAtNonNegative(p, m);
    if keys[|keys| - 1] != k {
      assert k in p;
      SumAtBoundsElement(p, m, k);
    }
  }

  /** The sum only reads the map at the listed keys. */
  lemma {:induction false} SumAtAgrees<K>(keys: seq<K>, m: map<K, int>, m': map<K, int>)
    requires forall i | 0 <= i < |keys| :: Get0(m, keys[i]) == Get0(m', keys[i])
    ensures SumAt(keys, m) == SumAt(keys, m')
  {
    if |keys| > 0 {
      SumAtAgrees(keys[..|keys| - 1], m, m');
    }
  }
}

=== FILE: dataobjects.dfy ===
/**
 The passive records the classifier passes between its stages: a tokenised
 document, the counts gathered over a dataset, and the trained parameters.
 */
module DataObjects {
  import opened Collections

  type Text = string
  type Token = string
  type Category = string

  /** One example: its label and how often each token occurs in it. */
  datatype Document = Document(category: Category, tokens: OrderedMap<Token, int>)

  /**
   Counts over a dataset: `n` documents, documents per category, and for every
   feature the number of documents of each category that contain it.
   */
  datatype FeatureStats = FeatureStats(
    n: int,
    categoryCounts: OrderedMap<Category, int>,
    featureCategoryJointCount: OrderedMap<Token, OrderedMap<Category, int>>)

  /**
   The trained parameters: sample size `n`, vocabulary size `d`, category count
   `c`, the log prior of each category and the log likelihood of each
   (feature, category) pair.
   */
  datatype KnowledgeBase = KnowledgeBase(
    n: int,
    d: int,
    c: int,
    logPriors: OrderedMap<Category, real>,
    logLikelihoods: map<Token, map<Category, real>>)

  /** The documents of a dataset are well-formed token maps. */
  ghost predicate ValidDataset(dataset: seq<Document>) {
    forall i | 0 <= i < |dataset| :: dataset[i].tokens.Valid()
  }

  /** The joint counts of `f`, or no counts when `f` was never seen. */
  function RowOf(joint: OrderedMap<Token, OrderedMap<Category, int>>, f: Token): OrderedMap<Category, int> {
    if f in joint.entries then joint.entries[f] else Empty()
  }

  /**
   The shape every statistics value built from a dataset has: well-formed maps,
   every stored count at least one, joint counts bounded by their category's
   count and naming only known categories.
   */
  ghost predicate WellFormed(s: FeatureStats) {
    && s.n >= 0
    && s.categoryCounts.Valid()
    && s.featureCategoryJointCount.Valid()
    && (forall c | c in s.categoryCounts.entries :: 1 <= s.categoryCounts.entries[c] <= s.n)
    && (forall f | f in s.featureCategoryJointCount.entries :: WellFormedRow(s, s.featureCategoryJointCount.entries[f]))
  }

  ghost predicate WellFormedRow(s: FeatureStats, row: OrderedMap<Category, int>) {
    && row.Valid()
    && (forall c | c in row.entries ::
          c in s.categoryCounts.entries && 1 <= row.entries[c] <= s.categoryCounts.entries[c])
  }

  /** Every category the likelihood table is consulted for has an entry for every feature. */
  ghost predicate Dense(kb: KnowledgeBase) {
    && kb.logPriors.Valid()
    && forall f | f in kb.logLikelihoods :: forall c | c in kb.logPriors.entries :: c in kb.logLikelihoods[f]
  }
}

=== FILE: featureextraction.dfy ===
/**
 Feature statistics over a list of documents, and chi-square feature selection.

 `ExtractFeatureStats` folds the documents in order: every document adds one to
 `n`, one to the count of its category, and one to the joint count of each
 distinct token it contains (the occurrence count of the token is not used).
 `ChiSquare` then scores each (feature, category) pair with Pearson's 2x2
 independence statistic and keeps a feature with its best score at or above a
 critical level.

 The reference counts `Labelled`, `Containing`, `Holding` and `Neither` define
 what the statistics mean independently of how they are accumulated.
 */
module FeatureExtraction {
  import opened Collections
  import opened DataObjects

  // ---------------------------------------------------------------------------
  // Reference counts over a dataset
  // ---------------------------------------------------------------------------

  /** Number of documents labelled `c`. */
  function Labelled(dataset: seq<Document>, c: Category): (k: nat)
    ensures k <= |dataset|
  {
    if |dataset| == 0 then 0
    else Labelled(dataset[..|dataset| - 1], c) + (if dataset[|dataset| - 1].category == c then 1 else 0)
  }

  /** The documents whose token map contains `f`, in order. */
  function DocsWith(dataset: seq<Document>, f: Token): (r: seq<Document>)
    ensures |r| <= |dataset|
  {
    if |dataset| == 0 then []
    else
      var d := dataset[|dataset| - 1];
      DocsWith(dataset[..|dataset| - 1], f) + (if f in d.tokens.entries then [d] else [])
  }

  /** Number of documents containing `f`. */
  function Containing(dataset: seq<Document>, f: Token): nat {
    |DocsWith(dataset, f)|
  }

  /** Number of documents labelled `c` that contain `f`. */
  function Holding(dataset: seq<Document>, f: Token, c: Category): nat {
    Labelled(DocsWith(dataset, f), c)
  }

  /** Number of documents neither labelled `c` nor containing `f`. */
  function Neither(dataset: seq<Document>, f: Token, c: Category): nat {
    if |dataset| == 0 then 0
    else
      var d := dataset[|dataset| - 1];
      Neither(dataset[..|dataset| - 1], f, c) + (if d.category != c && f !in d.tokens.entries then 1 else 0)
  }

  // ---------------------------------------------------------------------------
  // extractFeatureStats
  // ---------------------------------------------------------------------------

  /** Adds one to the count of `k`, creating the entry at one. */
  function Increment<K(==,!new)>(m: OrderedMap<K, int>, k: K): (r: OrderedMap<K, int>)
    ensures Get0(r.entries, k) == Get0(m.entries, k) + 1
    ensures forall j | j != k :: Get0(r.entries, j) == Get0(m.entries, j)
    ensures forall j :: j in r.entries <==> j in m.entries || j == k
    ensures m.Valid() ==> r.Valid()
  {
    m.Put(k, Get0(m.entries, k) + 1)
  }

  /** The inner loop: one more document of `category` contains each of `tokens`. */
  function CountTokens(joint: OrderedMap<Token, OrderedMap<Category, int>>, category: Category, tokens: seq<Token>)
    : (r: OrderedMap<Token, OrderedMap<Category, int>>)
    ensures forall f :: f in r.entries <==> f in joint.entries || f in tokens
    ensures forall f | f !in tokens :: RowOf(r, f) == RowOf(joint, f)
    ensures joint.Valid() ==> r.Valid()
  {
    if |tokens| == 0 then joint
    else
      var j := CountTokens(joint, category, tokens[..|tokens| - 1]);
      var f := tokens[|tokens| - 1];
      j.Put(f, Increment(RowOf(j, f), category))
  }

  /** One iteration of the outer loop. */
  function AddDocument(stats: FeatureStats, doc: Document): (r: FeatureStats)
    ensures r.n == stats.n + 1
    ensures Get0(r.categoryCounts.entries, doc.category) == Get0(stats.categoryCounts.entries, doc.category) + 1
    ensures forall c | c != doc.category :: Get0(r.categoryCounts.entries, c) == Get0(stats.categoryCounts.entries, c)
    ensures forall f :: f in r.featureCategoryJointCount.entries <==>
      f in stats.featureCategoryJointCount.entries || f in doc.tokens.keys
    ensures forall f | f !in doc.tokens.keys :: RowOf(r.featureCategoryJointCount, f) == RowOf(stats.featureCategoryJointCount, f)
  {
    FeatureStats(
      stats.n + 1,
      Increment(stats.categoryCounts, doc.category),
      CountTokens(stats.featureCategoryJointCount, doc.category, doc.tokens.keys))
  }

  /** Folds the documents in order into fresh statistics; every document is counted. */
  function ExtractFeatureStats(dataset: seq<Document>): (s: FeatureStats)
    ensures s.n == |dataset|
  {
    if |dataset| == 0 then FeatureStats(0, Empty(), Empty())
    else AddDocument(ExtractFeatureStats(dataset[..|dataset| - 1]), dataset[|dataset| - 1])
  }

  /** Each token of a document is counted once in its row; other rows are untouched. */
  lemma {:induction false} CountTokensEffect(
    joint: OrderedMap<Token, OrderedMap<Category, int>>, category: Category, tokens: seq<Token>)
    requires Distinct(tokens)
    ensures var r := CountTokens(joint, category, tokens);
      && (forall f :: f in r.entries <==> f in joint.entries || f in tokens)
      && (forall f :: RowOf(r, f) == if f in tokens then Increment(RowOf(joint, f), category) else RowOf(joint, f))
      && (joint.Valid() ==> r.Valid())
  {
    if |tokens| > 0 {
      var p := tokens[..|tokens| - 1];
      var last := tokens[|tokens| - 1];
      assert Distinct(p);
      CountTokensEffect(joint, category, p);
      assert last !in p;
      assert forall f :: f in tokens <==> f in p || f == last;
    }
  }

  lemma {:induction false} LabelledSnoc(dataset: seq<Document>, d: Document, c: Category)
    ensures Labelled(dataset + [d], c) == Labelled(dataset, c) + (if d.category == c then 1 else 0)
  {
    assert (dataset + [d])[..|dataset|] == dataset;
  }

  /** How the reference counts change when the last document is added. */
  lemma CountsStep(dataset: seq<Document>, f: Token, c: Category)
    requires |dataset| > 0
    ensures var p := dataset[..|dataset| - 1];
      var d := dataset[|dataset| - 1];
      && Labelled(dataset, c) == Labelled(p, c) + (if d.category == c then 1 else 0)
      && Containing(dataset, f) == Containing(p, f) + (if f in d.tokens.entries then 1 else 0)
      && Holding(dataset, f, c) == Holding(p, f, c) + (if f in d.tokens.entries && d.category == c then 1 else 0)
  {
    var p := dataset[..|dataset| - 1];
    var d := dataset[|dataset| - 1];
    assert DocsWith(dataset, f) == DocsWith(p, f) + (if f in d.tokens.entries then [d] else []);
    if f in d.tokens.entries {
      LabelledSnoc(DocsWith(p, f), d, c);
    } else {
      assert DocsWith(dataset, f) == DocsWith(p, f);
    }
  }

  /**
   The statistics count exactly what they claim: category counts are the number
   of documents per label, and the joint count of (f, c) is the number of
   documents labelled c that contain f; an entry exists exactly when its count
   is positive.
   */
  lemma {:induction false} ExtractFeatureStatsCounts(dataset: seq<Document>)
    requires ValidDataset(dataset)
    ensures var s := ExtractFeatureStats(dataset);
      && s.categoryCounts.Valid()
      && s.featureCategoryJointCount.Valid()
      && (forall c :: Get0(s.categoryCounts.entries, c) == Labelled(dataset, c))
      && (forall c :: c in s.categoryCounts.entries <==> Labelled(dataset, c) > 0)
      && (forall f :: f in s.featureCategoryJointCount.entries <==> Containing(dataset, f) > 0)
      && (forall f :: RowOf(s.featureCategoryJointCount, f).Valid())
      && (forall f, c :: Get0(RowOf(s.featureCategoryJointCount, f).entries, c) == Holding(dataset, f, c))
      && (forall f, c :: c in RowOf(s.featureCategoryJointCount, f).entries <==> Holding(dataset, f, c) > 0)
  {
    CategoryCountsAreLabels(dataset);
    JointFeaturesAreContained(dataset);
    JointCountsAreHoldings(dataset);
  }

  /** The documents before the last one are well-formed, and so is the last one. */
  lemma ValidPrefix(dataset: seq<Document>)
    requires ValidDataset(dataset) && |dataset| > 0
    ensures ValidDataset(dataset[..|dataset| - 1])
    ensures dataset[|dataset| - 1].tokens.Valid()
  {
    var p := dataset[..|dataset| - 1];
    forall i | 0 <= i < |p| ensures p[i].tokens.Valid() {
      assert p[i] == dataset[i];
    }
  }

  lemma {:induction false} CategoryCountsAreLabels(dataset: seq<Document>)
    ensures var s := ExtractFeatureStats(dataset);
      && s.categoryCounts.Valid()
      && (forall c :: Get0(s.categoryCounts.entries, c) == Labelled(dataset, c))
      && (forall c :: c in s.categoryCounts.entries <==> Labelled(dataset, c) > 0)
  {
    if |dataset| > 0 {
      var p := dataset[..|dataset| - 1];
      CategoryCountsAreLabels(p);
      var s := ExtractFeatureStats(dataset);
      assert s.categoryCounts == Increment(ExtractFeatureStats(p).categoryCounts, dataset[|dataset| - 1].category);
      forall c ensures Labelled(dataset, c) == Labelled(p, c) + (if dataset[|dataset| - 1].category == c then 1 else 0) {
        CountsStep(dataset, "", c);
      }
    }
  }

  lemma {:induction false} JointFeaturesAreContained(dataset: seq<Document>)
    requires ValidDataset(dataset)
    ensures var s := ExtractFeatureStats(dataset);
      && s.featureCategoryJointCount.Valid()
      && (forall f :: f in s.featureCategoryJointCount.entries <==> Containing(dataset, f) > 0)
      && (forall f :: RowOf(s.featureCategoryJointCount, f).Valid())
  {
    if |dataset| > 0 {
      var p := dataset[..|dataset| - 1];
      var d := dataset[|dataset| - 1];
      ValidPrefix(dataset);
      JointFeaturesAreContained(p);
      var sp := ExtractFeatureStats(p);
      var s := ExtractFeatureStats(dataset);
      assert s.featureCategoryJointCount == CountTokens(sp.featureCategoryJointCount, d.category, d.tokens.keys);
      CountTokensEffect(sp.featureCategoryJointCount, d.category, d.tokens.keys);
      forall f
        ensures f in s.featureCategoryJointCount.entries <==> Containing(dataset, f) > 0
      {
        CountsStep(dataset, f, "");
      }
    }
  }

  lemma {:induction false} JointCountsAreHoldings(dataset: seq<Document>)
    requires ValidDataset(dataset)
    ensures var s := ExtractFeatureStats(dataset);
      && (forall f, c :: Get0(RowOf(s.featureCategoryJointCount, f).entries, c) == Holding(dataset, f, c))
      && (forall f, c :: c in RowOf(s.featureCategoryJointCount, f).entries <==> Holding(dataset, f, c) > 0)
  {
    if |dataset| > 0 {
      var p := dataset[..|dataset| - 1];
      var d := dataset[|dataset| - 1];
      ValidPrefix(dataset);
      JointCountsAreHoldings(p);
      var sp := ExtractFeatureStats(p);
      var s := ExtractFeatureStats(dataset);
      assert s.featureCategoryJointCount == CountTokens(sp.featureCategoryJointCount, d.category, d.tokens.keys);
      CountTokensEffect(sp.featureCategoryJointCount, d.category, d.tokens.keys);
      forall f, c
        ensures Get0(RowOf(s.featureCategoryJointCount, f).entries, c) == Holding(dataset, f, c)
        ensures c in RowOf(s.featureCategoryJointCount, f).entries <==> Holding(dataset, f, c) > 0
      {
        CountsStep(dataset, f, c);
      }
    }
  }

  /** Restricting to the documents containing a feature cannot add documents of any label. */
  lemma {:induction false} HoldingBounded(dataset: seq<Document>, f: Token, c: Category)
    ensures Holding(dataset, f, c) <= Labelled(dataset, c)
    ensures Holding(dataset, f, c) <= Containing(dataset, f)
  {
    if |dataset| > 0 {
      HoldingBounded(dataset[..|dataset| - 1], f, c);
      CountsStep(dataset, f, c);
    }
  }

  /** The statistics of any dataset satisfy the invariant every later stage relies on. */
  lemma ExtractWellFormed(dataset: seq<Document>)
    requires ValidDataset(dataset)
    ensures WellFormed(ExtractFeatureStats(dataset))
  {
    ExtractFeatureStatsCounts(dataset);
    var s := ExtractFeatureStats(dataset);
    forall f | f in s.featureCategoryJointCount.entries
      ensures WellFormedRow(s, s.featureCategoryJointCount.entries[f])
    {
      assert RowOf(s.featureCategoryJointCount, f) == s.featureCategoryJointCount.entries[f];
      forall c | c in s.featureCategoryJointCount.entries[f].entries
        ensures c in s.categoryCounts.entries
        ensures 1 <= s.featureCategoryJointCount.entries[f].entries[c] <= s.categoryCounts.entries[c]
      {
        HoldingBounded(dataset, f, c);
      }
    }
  }

  // ---------------------------------------------------------------------------
  // Sums of counts
  // ---------------------------------------------------------------------------

  /** Sum of the label counts of the categories listed in `order`. */
  ghost function SumLabelled(dataset: seq<Document>, order: seq<Category>): int {
    if |order| == 0 then 0
    else SumLabelled(dataset, order[..|order| - 1]) + Labelled(dataset, order[|order| - 1])
  }

  lemma {:induction false} SumLabelledSnoc(dataset: seq<Document>, d: Document, order: seq<Category>)
    ensures SumLabelled(dataset + [d], order) == SumLabelled(dataset, order) + Occurrences(order, d.category)
  {
    if |order| > 0 {
      SumLabelledSnoc(dataset, d, order[..|order| - 1]);
      LabelledSnoc(dataset, d, order[|order| - 1]);
    }
  }

  lemma {:induction false} SumLabelledOfNothing(dataset: seq<Document>, order: seq<Category>)
    requires |dataset| == 0
    ensures SumLabelled(dataset, order) == 0
  {
    if |order| > 0 {
      SumLabelledOfNothing(dataset, order[..|order| - 1]);
    }
  }

  /** Listing every label once counts every document once. */
  lemma {:induction false} SumLabelledCoversDataset(dataset: seq<Document>, order: seq<Category>)
    requires Distinct(order)
    requires forall c :: Labelled(dataset, c) > 0 ==> c in order
    ensures SumLabelled(dataset, order) == |dataset|
  {
    if |dataset| == 0 {
      SumLabelledOfNothing(dataset, order);
    } else {
      var p := dataset[..|dataset| - 1];
      var d := dataset[|dataset| - 1];
      assert dataset == p + [d];
      forall c | Labelled(p, c) > 0 ensures c in order {
        LabelledSnoc(p, d, c);
      }
      SumLabelledCoversDataset(p, order);
      SumLabelledSnoc(p, d, order);
      LabelledSnoc(p, d, d.category);
      assert d.category in order;
      DistinctOccursOnce(order, d.category);
      assert SumLabelled(p + [d], order) == |p| + 1;
    }
  }

  lemma {:induction false} SumAtIsSumLabelled(dataset: seq<Document>, order: seq<Category>, m: map<Category, int>)
    requires forall i | 0 <= i < |order| :: Get0(m, order[i]) == Labelled(dataset, order[i])
    ensures SumAt(order, m) == SumLabelled(dataset, order)
  {
    if |order| > 0 {
      SumAtIsSumLabelled(dataset, order[..|order| - 1], m);
    }
  }

  /** The category counts sum to the number of documents. */
  lemma CategoryCountsSumToN(dataset: seq<Document>)
    requires ValidDataset(dataset)
    ensures var s := ExtractFeatureStats(dataset);
      SumAt(s.categoryCounts.keys, s.categoryCounts.entries) == s.n
  {
    ExtractFeatureStatsCounts(dataset);
    var s := ExtractFeatureStats(dataset);
    SumAtIsSumLabelled(dataset, s.categoryCounts.keys, s.categoryCounts.entries);
    SumLabelledCoversDataset(dataset, s.categoryCounts.keys);
  }

  /**
   The joint counts of a feature sum to the number of documents containing it,
   so they never exceed `n`; each one lies between one and its category's count.
   */
  lemma JointCountsBounded(dataset: seq<Document>, f: Token)
    requires ValidDataset(dataset)
    ensures var s := ExtractFeatureStats(dataset);
      var row := RowOf(s.featureCategoryJointCount, f);
      && SumAt(row.keys, row.entries) == Containing(dataset, f) <= s.n
      && forall c | c in row.entries :: c in s.categoryCounts.entries && 1 <= row.entries[c] <= s.categoryCounts.entries[c]
  {
    ExtractFeatureStatsCounts(dataset);
    ExtractWellFormed(dataset);
    var s := ExtractFeatureStats(dataset);
    var row := RowOf(s.featureCategoryJointCount, f);
    var x := DocsWith(dataset, f);
    forall c | Labelled(x, c) > 0 ensures c in row.keys {
      assert Holding(dataset, f, c) == Labelled(x, c);
    }
    forall i | 0 <= i < |row.keys| ensures Get0(row.entries, row.keys[i]) == Labelled(x, row.keys[i]) {
      assert Holding(dataset, f, row.keys[i]) == Labelled(x, row.keys[i]);
    }
    SumAtIsSumLabelled(x, row.keys, row.entries);
    SumLabelledCoversDataset(x, row.keys);
    if f !in s.featureCategoryJointCount.entries {
      assert row == Empty();
    }
  }

  // ---------------------------------------------------------------------------
  // The 2x2 contingency table
  // ---------------------------------------------------------------------------

  /**
   Documents split by (has the feature?, has the category?): `n11` both, `n10`
   feature only, `n01` category only, `n00` neither.
   */
  datatype Contingency = Contingency(n11: int, n10: int, n01: int, n00: int)

  /** Statistics whose joint counts can be scored: every row names only known categories. */
  ghost predicate Consistent(stats: FeatureStats) {
    && stats.featureCategoryJointCount.Valid()
    && forall f | f in stats.featureCategoryJointCount.entries ::
         && stats.featureCategoryJointCount.entries[f].Valid()
         && forall c | c in stats.featureCategoryJointCount.entries[f].entries :: c in stats.categoryCounts.entries
  }

  /** The table of (f, c), derived from the joint counts as the selection loop derives it. */
  function ContingencyTable(stats: FeatureStats, f: Token, c: Category): (t: Contingency)
    requires f in stats.featureCategoryJointCount.entries
    requires c in stats.featureCategoryJointCount.entries[f].entries
    requires c in stats.categoryCounts.entries
    ensures t.n11 + t.n10 + t.n01 + t.n00 == stats.n
  {
    var row := stats.featureCategoryJointCount.entries[f];
    var n1dot := SumAt(row.keys, row.entries);
    var n0dot := stats.n - n1dot;
    var n11 := row.entries[c];
    var n01 := stats.categoryCounts.entries[c] - n11;
    var n00 := n0dot - n01;
    var n10 := n1dot - n11;
    Contingency(n11, n10, n01, n00)
  }

  /** Every document falls in exactly one cell. */
  lemma {:induction false} CellsPartitionDataset(dataset: seq<Document>, f: Token, c: Category)
    ensures Containing(dataset, f) + Labelled(dataset, c) - Holding(dataset, f, c) + Neither(dataset, f, c) == |dataset|
  {
    if |dataset| > 0 {
      CellsPartitionDataset(dataset[..|dataset| - 1], f, c);
      CountsStep(dataset, f, c);
    }
  }

  /**
   For statistics of a dataset, the four cells are exactly the four document
   counts; all are non-negative, `n11` is at least one, and they sum to `n`.
   */
  lemma ContingencyOfExtracted(dataset: seq<Document>, f: Token, c: Category)
    requires ValidDataset(dataset)
    requires f in ExtractFeatureStats(dataset).featureCategoryJointCount.entries
    requires c in ExtractFeatureStats(dataset).featureCategoryJointCount.entries[f].entries
    ensures var s := ExtractFeatureStats(dataset);
      && c in s.categoryCounts.entries
      && var t := ContingencyTable(s, f, c);
      && t.n11 == Holding(dataset, f, c) >= 1
      && t.n10 == Containing(dataset, f) - Holding(dataset, f, c) >= 0
      && t.n01 == Labelled(dataset, c) - Holding(dataset, f, c) >= 0
      && t.n00 == Neither(dataset, f, c) >= 0
  {
    var s := ExtractFeatureStats(dataset);
    ExtractFeatureStatsCounts(dataset);
    ExtractWellFormed(dataset);
    JointCountsBounded(dataset, f);
    HoldingBounded(dataset, f, c);
    CellsPartitionDataset(dataset, f, c);
    assert RowOf(s.featureCategoryJointCount, f) == s.featureCategoryJointCount.entries[f];
  }

  // ---------------------------------------------------------------------------
  // chisquare
  // ---------------------------------------------------------------------------

  function Denominator(t: Contingency): int {
    (t.n11 + t.n01) * (t.n11 + t.n10) * (t.n10 + t.n00) * (t.n01 + t.n00)
  }

  function Difference(t: Contingency): int {
    t.n11 * t.n00 - t.n10 * t.n01
  }

  /**
   Pearson's statistic n (n11 n00 - n10 n01)^2 / ((n11+n01)(n11+n10)(n10+n00)(n01+n00)).
   `None` stands for the floating-point NaN of a zero denominator, which fails
   every comparison with the critical level.
   */
  function ChiSquareScore(t: Contingency, n: int): (r: Option<real>)
    ensures r.None? <==> Denominator(t) == 0
  {
    if Denominator(t) == 0 then None
    else Some((n * Difference(t) * Difference(t)) as real / Denominator(t) as real)
  }

  function Score(stats: FeatureStats, f: Token, c: Category): Option<real>
    requires f in stats.featureCategoryJointCount.entries
    requires c in stats.featureCategoryJointCount.entries[f].entries
    requires c in stats.categoryCounts.entries
  {
    ChiSquareScore(ContingencyTable(stats, f, c), stats.n)
  }

  /** (f, c) is a joint-count entry whose score reaches the critical level. */
  predicate Qualifies(stats: FeatureStats, f: Token, c: Category, criticalLevel: real) {
    && f in stats.featureCategoryJointCount.entries
    && c in stats.featureCategoryJointCount.entries[f].entries
    && c in stats.categoryCounts.entries
    && var score := Score(stats, f, c);
    && score.Some?
    && score.value >= criticalLevel
  }

  /**
   The inner loop over the categories of `f`: the first strictly greater
   qualifying score replaces the one kept so far.  The result is the maximum
   qualifying score, and exists exactly when some category qualifies.
   */
  function MaxQualifying(stats: FeatureStats, f: Token, cats: seq<Category>, criticalLevel: real): (r: Option<real>)
    ensures r.Some? <==> exists i | 0 <= i < |cats| :: Qualifies(stats, f, cats[i], criticalLevel)
    ensures r.Some? ==> r.value >= criticalLevel
    ensures r.Some? ==> exists i | 0 <= i < |cats| ::
      Qualifies(stats, f, cats[i], criticalLevel) && Score(stats, f, cats[i]).value == r.value
    ensures r.Some? ==> forall i | 0 <= i < |cats| && Qualifies(stats, f, cats[i], criticalLevel) ::
      Score(stats, f, cats[i]).value <= r.value
  {
    if |cats| == 0 then None
    else
      var previous := MaxQualifying(stats, f, cats[..|cats| - 1], criticalLevel);
      var c := cats[|cats| - 1];
      assert forall i | 0 <= i < |cats| - 1 :: cats[i] == cats[..|cats| - 1][i];
      if Qualifies(stats, f, c, criticalLevel) && (previous.None? || Score(stats, f, c).value > previous.value)
      then Some(Score(stats, f, c).value)
      else previous
  }

  /**
   Feature selection: a feature is kept exactly when one of its categories
   qualifies, with the maximum qualifying score; every kept score reaches the
   critical level and every kept feature has joint counts.
   */
  function ChiSquare(stats: FeatureStats, criticalLevel: real): (selected: map<Token, real>)
    requires Consistent(stats)
    ensures forall f :: f in selected <==>
      f in stats.featureCategoryJointCount.entries && exists c :: Qualifies(stats, f, c, criticalLevel)
    ensures forall f | f in selected :: selected[f] >= criticalLevel
    ensures forall f, c | f in selected && Qualifies(stats, f, c, criticalLevel) ::
      Score(stats, f, c).value <= selected[f]
    ensures forall f | f in selected :: exists c ::
      Qualifies(stats, f, c, criticalLevel) && Score(stats, f, c).value == selected[f]
  {
    var joint := stats.featureCategoryJointCount;
    MaxQualifyingOverRows(stats, criticalLevel);
    map f | f in joint.entries && MaxQualifying(stats, f, joint.entries[f].keys, criticalLevel).Some? ::
      MaxQualifying(stats, f, joint.entries[f].keys, criticalLevel).value
  }

  /** Iterating a row's keys visits exactly the categories that can qualify. */
  lemma MaxQualifyingOverRows(stats: FeatureStats, criticalLevel: real)
    requires Consistent(stats)
    ensures forall f | f in stats.featureCategoryJointCount.entries ::
      var cats := stats.featureCategoryJointCount.entries[f].keys;
      forall c :: Qualifies(stats, f, c, criticalLevel) <==> c in cats && Qualifies(stats, f, c, criticalLevel)
  {
  }

  /** Per feature: a qualifying maximum at a higher level is also the maximum at a lower one. */
  lemma MaxQualifyingMonotone(stats: FeatureStats, f: Token, cats: seq<Category>, low: real, high: real)
    requires low <= high
    ensures var h := MaxQualifying(stats, f, cats, high);
      var l := MaxQualifying(stats, f, cats, low);
      h.Some? ==> l.Some? && l.value == h.value
  {
    var h := MaxQualifying(stats, f, cats, high);
    var l := MaxQualifying(stats, f, cats, low);
    if h.Some? {
      var i :| 0 <= i < |cats| && Qualifies(stats, f, cats[i], high) && Score(stats, f, cats[i]).value == h.value;
      assert Qualifies(stats, f, cats[i], low);
      var j :| 0 <= j < |cats| && Qualifies(stats, f, cats[j], low) && Score(stats, f, cats[j]).value == l.value;
      assert Qualifies(stats, f, cats[j], high);
    }
  }

  /**
   Raising the critical level only drops features; a feature that survives keeps
   the same score.
   */
  lemma ChiSquareMonotone(stats: FeatureStats, low: real, high: real)
    requires Consistent(stats)
    requires low <= high
    ensures ChiSquare(stats, high).Keys <= ChiSquare(stats, low).Keys
    ensures forall f | f in ChiSquare(stats, high) :: ChiSquare(stats, high)[f] == ChiSquare(stats, low)[f]
  {
    var joint := stats.featureCategoryJointCount;
    forall f | f in ChiSquare(stats, high)
      ensures f in ChiSquare(stats, low) && ChiSquare(stats, high)[f] == ChiSquare(stats, low)[f]
    {
      MaxQualifyingMonotone(stats, f, joint.entries[f].keys, low, high);
    }
  }

  /**
   A zero denominator arises exactly when the feature is in every document or
   the category holds every document, and then the numerator is zero too: the
   score is 0/0 (NaN), never a division of a positive number by zero.
   */
  lemma ZeroDenominatorMeansZeroNumerator(dataset: seq<Document>, f: Token, c: Category)
    requires ValidDataset(dataset)
    requires f in ExtractFeatureStats(dataset).featureCategoryJointCount.entries
    requires c in ExtractFeatureStats(dataset).featureCategoryJointCount.entries[f].entries
    ensures var s := ExtractFeatureStats(dataset);
      && c in s.categoryCounts.entries
      && var t := ContingencyTable(s, f, c);
      && (Denominator(t) == 0 <==> Containing(dataset, f) == |dataset| || Labelled(dataset, c) == |dataset|)
      && (Denominator(t) == 0 ==> Difference(t) == 0)
  {
    ContingencyOfExtracted(dataset, f, c);
    CellsPartitionDataset(dataset, f, c);
    var s := ExtractFeatureStats(dataset);
    var t := ContingencyTable(s, f, c);
    FactorsOfDenominator(t);
  }

  /** With non-negative cells and n11 >= 1, only the last two factors can vanish. */
  lemma FactorsOfDenominator(t: Contingency)
    requires t.n11 >= 1 && t.n10 >= 0 && t.n01 >= 0 && t.n00 >= 0
    ensures Denominator(t) == 0 <==> t.n10 + t.n00 == 0 || t.n01 + t.n00 == 0
    ensures Denominator(t) >= 0
    ensures Denominator(t) == 0 ==> Difference(t) == 0
  {
    var a, b, x, y := t.n11 + t.n01, t.n11 + t.n10, t.n10 + t.n00, t.n01 + t.n00;
    ProductSign(a, b, x, y);
    if x == 0 {
      assert t.n10 == 0 && t.n00 == 0;
    } else if y == 0 {
      assert t.n01 == 0 && t.n00 == 0;
    }
  }

  lemma ProductSign(a: int, b: int, x: int, y: int)
    requires a >= 1 && b >= 1 && x >= 0 && y >= 0
    ensures a * b * x * y >= 0
    ensures a * b * x * y == 0 <==> x == 0 || y == 0
  {
    var ab := a * b;
    assert ab >= 1;
    if x >= 1 && y >= 1 {
      var abx := ab * x;
      assert abx >= 1;
      assert abx * y >= 1;
    } else if x == 0 {
      assert ab * x == 0;
    } else {
      assert ab * x * y == 0;
    }
    assert ab * x >= 0;
  }

  /** With a non-zero denominator the score of a dataset's statistics is never negative. */
  lemma ScoreNonNegative(dataset: seq<Document>, f: Token, c: Category)
    requires ValidDataset(dataset)
    requires f in ExtractFeatureStats(dataset).featureCategoryJointCount.entries
    requires c in ExtractFeatureStats(dataset).featureCategoryJointCount.entries[f].entries
    ensures var s := ExtractFeatureStats(dataset);
      && c in s.categoryCounts.entries
      && var score := Score(s, f, c);
      && (score.Some? ==> score.value >= 0.0)
  {
    ContingencyOfExtracted(dataset, f, c);
    var s := ExtractFeatureStats(dataset);
    var t := ContingencyTable(s, f, c);
    FactorsOfDenominator(t);
    if Denominator(t) != 0 {
      RatioNonNegative(s.n, Difference(t), Denominator(t));
    }
  }

  lemma RatioNonNegative(n: int, diff: int, denominator: int)
    requires n >= 0 && denominator > 0
    ensures (n * diff * diff) as real / denominator as real >= 0.0
  {
    var sq := diff * diff;
    assert sq >= 0;
    assert n * diff * diff == n * sq;
    assert n * sq >= 0;
  }

  /**
   A feature found in exactly the documents of one category (and not in all
   documents) scores `n`, the largest value the statistic can take.
   */
  lemma PerfectIndicatorScoresN(dataset: seq<Document>, f: Token, c: Category)
    requires ValidDataset(dataset)
    requires Holding(dataset, f, c) == Labelled(dataset, c) == Containing(dataset, f)
    requires 0 < Labelled(dataset, c) < |dataset|
    ensures var s := ExtractFeatureStats(dataset);
      && f in s.featureCategoryJointCount.entries
      && c in s.featureCategoryJointCount.entries[f].entries
      && c in s.categoryCounts.entries
      && Score(s, f, c) == Some(|dataset| as real)
  {
    ExtractFeatureStatsCounts(dataset);
    var s := ExtractFeatureStats(dataset);
    assert RowOf(s.featureCategoryJointCount, f) == s.featureCategoryJointCount.entries[f];
    ContingencyOfExtracted(dataset, f, c);
    CellsPartitionDataset(dataset, f, c);
    var t := ContingencyTable(s, f, c);
    assert t == Contingency(Labelled(dataset, c), 0, 0, |dataset| - Labelled(dataset, c));
    PerfectRatio(|dataset|, Labelled(dataset, c), |dataset| - Labelled(dataset, c));
  }

  lemma PerfectRatio(n: int, k: int, m: int)
    requires k > 0 && m > 0
    ensures var t := Contingency(k, 0, 0, m);
      Denominator(t) != 0 && (n * Difference(t) * Difference(t)) as real / Denominator(t) as real == n as real
  {
    var t := Contingency(k, 0, 0, m);
    var q := k * m;
    assert q > 0;
    assert Difference(t) == q;
    assert Denominator(t) == q * q;
    var qq := q * q;
    assert qq > 0;
    assert n * q * q == n * qq;
    assert (n * qq) as real == n as real * qq as real;
  }

  // ---------------------------------------------------------------------------
  // The score as the source evaluates it, in 32-bit int arithmetic
  // ---------------------------------------------------------------------------

  /** The 32-bit two's-complement value a Java `int` operation yields for the exact result `x`. */
  function Int32(x: int): (r: int)
    ensures -0x8000_0000 <= r < 0x8000_0000
    ensures (x - r) % 0x1_0000_0000 == 0
    ensures -0x8000_0000 <= x < 0x8000_0000 ==> r == x
  {
    (x + 0x8000_0000) % 0x1_0000_0000 - 0x8000_0000
  }

  /** Values congruent modulo 2^32 stay congruent when both are multiplied by the same factor. */
  lemma CongruentProduct(x: int, y: int, c: int)
    requires (x - y) % 0x1_0000_0000 == 0
    ensures (x * c - y * c) % 0x1_0000_0000 == 0
  {
    var q := (x - y) / 0x1_0000_0000;
    assert x - y == 0x1_0000_0000 * q;
    assert x * c - y * c == (x - y) * c;
    assert (x - y) * c == 0x1_0000_0000 * (q * c);
  }

  /**
   The denominator as written: three `int` products, left to right, each
   wrapping.  It is congruent to the exact denominator modulo 2^32, so it is
   zero whenever the exact one is a multiple of 2^32.
   */
  function DenominatorAsWritten(t: Contingency): (r: int)
    ensures -0x8000_0000 <= r < 0x8000_0000
    ensures (Denominator(t) - r) % 0x1_0000_0000 == 0
  {
    var a, b, c, d := t.n11 + t.n01, t.n11 + t.n10, t.n10 + t.n00, t.n01 + t.n00;
    WrappedProductCongruent(a, b, c, d);
    Int32(Int32(Int32(a * b) * c) * d)
  }

  lemma WrappedProductCongruent(a: int, b: int, c: int, d: int)
    ensures (a * b * c * d - Int32(Int32(Int32(a * b) * c) * d)) % 0x1_0000_0000 == 0
  {
    var p1 := a * b;
    var w1 := Int32(p1);
    var w2 := Int32(w1 * c);
    var w3 := Int32(w2 * d);
    CongruentProduct(p1, w1, c);
    CongruentStep(p1 * c, w1 * c, w2);
    CongruentProduct(p1 * c, w2, d);
    CongruentStep(p1 * c * d, w2 * d, w3);
    assert a * b * c * d == p1 * c * d;
  }

  /** Congruence modulo 2^32 is transitive. */
  lemma CongruentStep(x: int, y: int, z: int)
    requires (x - y) % 0x1_0000_0000 == 0 && (y - z) % 0x1_0000_0000 == 0
    ensures (x - z) % 0x1_0000_0000 == 0
  {
    var q1 := (x - y) / 0x1_0000_0000;
    var q2 := (y - z) / 0x1_0000_0000;
    assert x - z == 0x1_0000_0000 * (q1 + q2);
  }

  /**
   The difference as written: two wrapping `int` products and a wrapping
   subtraction, congruent to the exact difference modulo 2^32.
   */
  function DifferenceAsWritten(t: Contingency): (r: int)
    ensures -0x8000_0000 <= r < 0x8000_0000
    ensures (Difference(t) - r) % 0x1_0000_0000 == 0
  {
    var x, y := t.n11 * t.n00, t.n10 * t.n01;
    WrappedDifferenceCongruent(x, y);
    Int32(Int32(x) - Int32(y))
  }

  lemma WrappedDifferenceCongruent(x: int, y: int)
    ensures (x - y - Int32(Int32(x) - Int32(y))) % 0x1_0000_0000 == 0
  {
    var wx, wy := Int32(x), Int32(y);
    var qx, qy := (x - wx) / 0x1_0000_0000, (y - wy) / 0x1_0000_0000;
    assert x - y - (wx - wy) == 0x1_0000_0000 * (qx - qy);
    CongruentStep(x - y, wx - wy, Int32(wx - wy));
  }

  /** An IEEE-754 double, as far as the score needs one. */
  datatype Double = Finite(value: real) | PositiveInfinity | NegativeInfinity | NaN

  /** Java's `x >= level`: never for NaN or negative infinity, always for positive infinity. */
  predicate AtLeast(x: Double, level: real) {
    match x
    case Finite(v) => v >= level
    case PositiveInfinity => true
    case NegativeInfinity => false
    case NaN => false
  }

  /**
   The statistic with the source's `int` arithmetic.  The numerator is a double
   and the wrapped denominator is converted to one, so a wrapped denominator of
   zero gives NaN when the numerator is zero and an infinity otherwise.
   */
  function ChiSquareScoreAsWritten(t: Contingency, n: int): (r: Double)
    ensures r.Finite? <==> DenominatorAsWritten(t) != 0
    ensures r == PositiveInfinity <==> DenominatorAsWritten(t) == 0 && n > 0 && DifferenceAsWritten(t) != 0
    ensures n >= 0 ==> (r == NaN <==> DenominatorAsWritten(t) == 0 && (n == 0 || DifferenceAsWritten(t) == 0))
    ensures r.Finite? && DenominatorAsWritten(t) < 0 && n >= 0 ==> r.value <= 0.0
  {
    var den := DenominatorAsWritten(t);
    var d := DifferenceAsWritten(t);
    NumeratorSign(n, d);
    if den != 0 then
      NegativeDenominatorRatio(n, d, den);
      Finite((n * d * d) as real / den as real)
    else if n * d * d > 0 then PositiveInfinity
    else if n * d * d < 0 then NegativeInfinity
    else NaN
  }

  lemma NumeratorSign(n: int, d: int)
    ensures n * d * d > 0 <==> n > 0 && d != 0
    ensures n * d * d < 0 <==> n < 0 && d != 0
  {
    var sq := d * d;
    assert d != 0 ==> sq > 0;
    assert n * d * d == n * sq;
  }

  lemma NegativeDenominatorRatio(n: int, d: int, den: int)
    ensures n >= 0 && den < 0 ==> (n * d * d) as real / den as real <= 0.0
  {
    if n >= 0 && den < 0 {
      var sq := d * d;
      assert sq >= 0;
      var num := n * sq;
      assert num >= 0;
      assert n * d * d == num;
      assert num as real / den as real == -(num as real / (-den) as real);
    }
  }

  /** A product of non-negative factors is zero only when one factor is. */
  lemma ZeroProductFactor(a: int, b: int, c: int, d: int)
    requires a >= 0 && b >= 0 && c >= 0 && d >= 0
    ensures a * b * c * d == 0 <==> a == 0 || b == 0 || c == 0 || d == 0
  {
    if a > 0 && b > 0 && c > 0 && d > 0 {
      assert a * b > 0;
      assert a * b * c > 0;
      assert a * b * c * d > 0;
    }
  }

  /**
   Up to 430 documents every intermediate product fits in an `int`, so the
   wrapping evaluation agrees with the exact one: NaN where the exact score is
   undefined, the same finite value otherwise. The two margins of each pair sum
   to the number of documents, so each pair's product is at most a quarter of
   its square, and 430^4 / 16 < 2^31. `FirstWrapExample` shows 431 documents
   can already wrap.
   */
  lemma AsWrittenAgreesOnSmallTables(t: Contingency, n: int)
    requires t.n11 >= 0 && t.n10 >= 0 && t.n01 >= 0 && t.n00 >= 0
    requires t.n11 + t.n10 + t.n01 + t.n00 <= 430
    ensures DenominatorAsWritten(t) == Denominator(t)
    ensures DifferenceAsWritten(t) == Difference(t)
    ensures ChiSquareScore(t, n).None? ==> ChiSquareScoreAsWritten(t, n) == NaN
    ensures ChiSquareScore(t, n).Some? ==> ChiSquareScoreAsWritten(t, n) == Finite(ChiSquareScore(t, n).value)
  {
    var a, b, c, d := t.n11 + t.n01, t.n11 + t.n10, t.n10 + t.n00, t.n01 + t.n00;
    var total := t.n11 + t.n10 + t.n01 + t.n00;
    MarginProductsFit(a, b, c, d, total);
    MulBounded(t.n11, t.n00, 430, 430);
    MulBounded(t.n10, t.n01, 430, 430);
    ZeroProductFactor(a, b, c, d);
    if Denominator(t) == 0 {
      assert Difference(t) == 0;
    }
  }

  /** The running products of the four margins stay within the `int` range. */
  lemma MarginProductsFit(a: int, b: int, c: int, d: int, total: int)
    requires a >= 0 && b >= 0 && c >= 0 && d >= 0
    requires a + c == total && b + d == total && total <= 430
    ensures 0 <= a * b <= 184900
    ensures 0 <= a * b * c <= 19_876_750
    ensures 0 <= a * b * c * d <= 2_136_750_625
  {
    MarginProduct(a, c, total);
    MarginProduct(b, d, total);
    MulBounded(a, b, 430, 430);
    MulBounded(a * c, b, 46225, 430);
    MulBounded(a * c, b * d, 46225, 46225);
    Regroup(a, b, c, d);
  }

  lemma Regroup(a: int, b: int, c: int, d: int)
    ensures a * b * c == (a * c) * b
    ensures a * b * c * d == (a * c) * (b * d)
  {
  }

  /** Two non-negative margins summing to at most 430 multiply to at most 430^2 / 4. */
  lemma MarginProduct(x: int, y: int, total: int)
    requires x >= 0 && y >= 0 && x + y == total <= 430
    ensures x * y <= 46225
  {
    assert total * total - 4 * (x * y) == (x - y) * (x - y);
    MulBounded(total, total, 430, 430);
  }

  /**
   The bound of `AsWrittenAgreesOnSmallTables` is tight: with 431 documents, a
   feature in exactly the 216 documents of one category has an exact
   denominator above the `int` range, and the source's product wraps negative.
   */
  lemma FirstWrapExample()
    ensures var t := Contingency(216, 0, 0, 215);
      && Denominator(t) == 2_156_673_600
      && Denominator(t) > 0x7fff_ffff
      && DenominatorAsWritten(t) == -2_138_293_696
  {
    assert Int32(216 * 216) == 46656;
    assert Int32(46656 * 215) == 10_031_040;
    assert Int32(10_031_040 * 215) == -2_138_293_696;
  }

  lemma MulBounded(x: int, y: int, xMax: int, yMax: int)
    requires 0 <= x <= xMax && 0 <= y <= yMax
    ensures 0 <= x * y <= xMax * yMax
  {
    assert x * y <= xMax * y;
    assert xMax * y <= xMax * yMax;
  }

  /**
   A feature found in exactly the 500 documents of one category out of 1000
   scores 1000 exactly, but the wrapped denominator is negative, so the score as
   written is negative and the feature fails every non-negative critical level.
   */
  lemma DenominatorOverflowExample()
    ensures var t := Contingency(500, 0, 0, 500);
      && ChiSquareScore(t, 1000) == Some(1000.0)
      && Denominator(t) == 62_500_000_000
      && DenominatorAsWritten(t) == -1_924_509_440
      && ChiSquareScoreAsWritten(t, 1000).Finite?
      && ChiSquareScoreAsWritten(t, 1000).value < 0.0
      && !AtLeast(ChiSquareScoreAsWritten(t, 1000), 0.0)
  {
    var t := Contingency(500, 0, 0, 500);
    PerfectRatio(1000, 500, 500);
    assert Int32(500 * 500) == 250_000;
    assert Int32(250_000 * 500) == 125_000_000;
    assert Int32(125_000_000 * 500) == -1_924_509_440;
    assert DifferenceAsWritten(t) == 250_000;
  }

  /**
   A feature found in exactly the 256 documents of one category out of 512
   scores 512 exactly, but the exact denominator is 2^32, which wraps to zero:
   the score as written is positive infinity and passes every critical level.
   */
  lemma DenominatorWrapsToZeroExample()
    ensures var t := Contingency(256, 0, 0, 256);
      && ChiSquareScore(t, 512) == Some(512.0)
      && Denominator(t) == 0x1_0000_0000
      && DenominatorAsWritten(t) == 0
      && DifferenceAsWritten(t) == 65536
      && ChiSquareScoreAsWritten(t, 512) == PositiveInfinity
      && forall level: real :: AtLeast(ChiSquareScoreAsWritten(t, 512), level)
  {
    var t := Contingency(256, 0, 0, 256);
    PerfectRatio(512, 256, 256);
    assert Int32(256 * 256) == 65536;
    assert Int32(65536 * 256) == 16_777_216;
    assert Int32(16_777_216 * 256) == 0;
    assert DifferenceAsWritten(t) == 65536;
  }
}

=== FILE: naivebayes.dfy ===
/**
 The multinomial Naive Bayes classifier: training and prediction.

 Training tokenises the labelled examples, gathers feature statistics, keeps
 the features that pass the chi-square test, fixes one log prior per category
 (estimated from the sample or validated from the caller) and fills a dense
 table of add-one smoothed log likelihoods.  Prediction scores every category
 by its log prior plus the occurrence-weighted log likelihoods of the known
 tokens of a text and answers the first category with the strictly highest
 score.

 The natural logarithm and the tokenizer are parameters: `log` is any function
 on reals and `tokenize` any function from a text to a token-count map.
 */
module NaiveBayes {
  import opened Collections
  import opened DataObjects
  import opened FeatureExtraction

  /** The default critical value of the feature-selection test (p = 0.001, one degree of freedom). */
  const DefaultCriticalValue: real := 10.83

  /** The classifier: its selection threshold and, once trained or loaded, its knowledge base. */
  datatype Classifier = Classifier(chisquareCriticalValue: real, knowledgeBase: Option<KnowledgeBase>)

  /** A classifier that is about to be trained. */
  function Untrained(): Classifier {
    Classifier(DefaultCriticalValue, None)
  }

  /** A classifier around an already trained knowledge base. */
  function Loaded(kb: KnowledgeBase): Classifier {
    Classifier(DefaultCriticalValue, Some(kb))
  }

  // ---------------------------------------------------------------------------
  // preprocessDataset
  // ---------------------------------------------------------------------------

  /** The examples of one category, tokenised and labelled, in order. */
  function Tokenized(category: Category, examples: seq<Text>, tokenize: Text -> OrderedMap<Token, int>)
    : (docs: seq<Document>)
    ensures |docs| == |examples|
    ensures forall i | 0 <= i < |docs| :: docs[i].category == category && docs[i].tokens == tokenize(examples[i])
  {
    if |examples| == 0 then []
    else
      Tokenized(category, examples[..|examples| - 1], tokenize)
      + [Document(category, tokenize(examples[|examples| - 1]))]
  }

  /** The documents of the listed categories, category after category. */
  function TokenizedAll(categories: seq<Category>, examples: map<Category, seq<Text>>, tokenize: Text -> OrderedMap<Token, int>)
    : (docs: seq<Document>)
    requires forall c | c in categories :: c in examples
  {
    if |categories| == 0 then []
    else
      var c := categories[|categories| - 1];
      TokenizedAll(categories[..|categories| - 1], examples, tokenize) + Tokenized(c, examples[c], tokenize)
  }

  /**
   `preprocessDataset`: one document per example, labelled with its category,
   in the iteration order of the categories.  When the tokenizer yields
   well-formed token maps, so does every document.
   */
  function PreprocessDataset(trainingDataset: OrderedMap<Category, seq<Text>>, tokenize: Text -> OrderedMap<Token, int>)
    : (dataset: seq<Document>)
    requires trainingDataset.Valid()
    ensures (forall t :: tokenize(t).Valid()) ==> ValidDataset(dataset)
  {
    TokenizedAllValid(trainingDataset.keys, trainingDataset.entries, tokenize);
    TokenizedAll(trainingDataset.keys, trainingDataset.entries, tokenize)
  }

  lemma {:induction false} TokenizedAllValid(
      categories: seq<Category>, examples: map<Category, seq<Text>>, tokenize: Text -> OrderedMap<Token, int>)
    requires forall c | c in categories :: c in examples
    ensures (forall t :: tokenize(t).Valid()) ==> ValidDataset(TokenizedAll(categories, examples, tokenize))
  {
    if |categories| > 0 && forall t :: tokenize(t).Valid() {
      var p := categories[..|categories| - 1];
      var c := categories[|categories| - 1];
      TokenizedAllValid(p, examples, tokenize);
      var a: seq<Document> := TokenizedAll(p, examples, tokenize);
      var b: seq<Document> := Tokenized(c, examples[c], tokenize);
      forall i | 0 <= i < |a + b| ensures (a + b)[i].tokens.Valid() {
        if i < |a| {
          assert (a + b)[i] == a[i];
        } else {
          assert (a + b)[i] == b[i - |a|];
        }
      }
    }
  }

  /** Counting the labels of a concatenation counts both parts. */
  lemma {:induction false} LabelledAppend(a: seq<Document>, b: seq<Document>, c: Category)
    ensures Labelled(a + b, c) == Labelled(a, c) + Labelled(b, c)
  {
    if |b| > 0 {
      var p := b[..|b| - 1];
      assert (a + b)[..|a + b| - 1] == a + p;
      assert (a + b)[|a + b| - 1] == b[|b| - 1];
      LabelledAppend(a, p, c);
    } else {
      assert a + b == a;
    }
  }

  lemma {:induction false} TokenizedLabels(category: Category, examples: seq<Text>, tokenize: Text -> OrderedMap<Token, int>, c: Category)
    ensures Labelled(Tokenized(category, examples, tokenize), c) == if c == category then |examples| else 0
  {
    if |examples| > 0 {
      var docs := Tokenized(category, examples, tokenize);
      assert docs[..|docs| - 1] == Tokenized(category, examples[..|examples| - 1], tokenize);
      TokenizedLabels(category, examples[..|examples| - 1], tokenize, c);
    }
  }

  lemma {:induction false} TokenizedAllLabels(
      categories: seq<Category>, examples: map<Category, seq<Text>>, tokenize: Text -> OrderedMap<Token, int>, c: Category)
    requires forall k | k in categories :: k in examples
    requires Distinct(categories)
    ensures Labelled(TokenizedAll(categories, examples, tokenize), c) == if c in categories then |examples[c]| else 0
  {
    if |categories| > 0 {
      var p := categories[..|categories| - 1];
      var last := categories[|categories| - 1];
      TokenizedAllLabels(p, examples, tokenize, c);
      LabelledAppend(TokenizedAll(p, examples, tokenize), Tokenized(last, examples[last], tokenize), c);
      TokenizedLabels(last, examples[last], tokenize, c);
      assert c in categories <==> c in p || c == last;
      assert last !in p;
    }
  }

  /**
   Every example becomes exactly one document of its category: the documents
   labelled `c` are as many as the examples listed under `c`.
   */
  lemma PreprocessCountsExamples(trainingDataset: OrderedMap<Category, seq<Text>>, tokenize: Text -> OrderedMap<Token, int>, c: Category)
    requires trainingDataset.Valid()
    ensures Labelled(PreprocessDataset(trainingDataset, tokenize), c) ==
      if c in trainingDataset.entries then |trainingDataset.entries[c]| else 0
  {
    TokenizedAllLabels(trainingDataset.keys, trainingDataset.entries, tokenize, c);
  }

  /** The number of examples listed under the given categories. */
  function ExampleCount(categories: seq<Category>, examples: map<Category, seq<Text>>): nat
    requires forall c | c in categories :: c in examples
  {
    if |categories| == 0 then 0
    else ExampleCount(categories[..|categories| - 1], examples) + |examples[categories[|categories| - 1]]|
  }

  lemma {:induction false} TokenizedAllSize(
      categories: seq<Category>, examples: map<Category, seq<Text>>, tokenize: Text -> OrderedMap<Token, int>)
    requires forall c | c in categories :: c in examples
    ensures |TokenizedAll(categories, examples, tokenize)| == ExampleCount(categories, examples)
  {
    if |categories| > 0 {
      TokenizedAllSize(categories[..|categories| - 1], examples, tokenize);
    }
  }

  /** Preprocessing builds exactly one document per example of the training dataset. */
  lemma PreprocessCountsAllExamples(trainingDataset: OrderedMap<Category, seq<Text>>, tokenize: Text -> OrderedMap<Token, int>)
    requires trainingDataset.Valid()
    ensures |PreprocessDataset(trainingDataset, tokenize)| == ExampleCount(trainingDataset.keys, trainingDataset.entries)
  {
    TokenizedAllSize(trainingDataset.keys, trainingDataset.entries, tokenize);
  }

  // ---------------------------------------------------------------------------
  // selectFeatures
  // ---------------------------------------------------------------------------

  lemma WellFormedIsConsistent(s: FeatureStats)
    requires WellFormed(s)
    ensures Consistent(s)
  {
  }

  /**
   `selectFeatures`: the statistics of the dataset with the joint counts cut
   down to the features chi-square selects.  The retained rows, `n` and the
   category counts are those of the full statistics.
   */
  function SelectFeatures(dataset: seq<Document>, criticalLevel: real): (stats: FeatureStats)
    requires ValidDataset(dataset)
    ensures var full := ExtractFeatureStats(dataset);
      && Consistent(full)
      && stats.n == full.n
      && stats.categoryCounts == full.categoryCounts
      && (forall f :: f in stats.featureCategoryJointCount.entries <==> f in ChiSquare(full, criticalLevel))
      && (forall f | f in stats.featureCategoryJointCount.entries ::
            stats.featureCategoryJointCount.entries[f] == full.featureCategoryJointCount.entries[f])
    ensures WellFormed(stats)
  {
    var full := ExtractFeatureStats(dataset);
    ExtractWellFormed(dataset);
    WellFormedIsConsistent(full);
    var selected := ChiSquare(full, criticalLevel);
    FeatureStats(full.n, full.categoryCounts, full.featureCategoryJointCount.Restrict(selected.Keys))
  }

  /**
   A feature survives selection exactly when it occurs in the dataset and one
   of its categories scores at least the critical level.
   */
  lemma SelectedFeatures(dataset: seq<Document>, criticalLevel: real, f: Token)
    requires ValidDataset(dataset)
    ensures var full := ExtractFeatureStats(dataset);
      f in SelectFeatures(dataset, criticalLevel).featureCategoryJointCount.entries <==>
        Containing(dataset, f) > 0 && exists c :: Qualifies(full, f, c, criticalLevel)
  {
    ExtractFeatureStatsCounts(dataset);
  }

  // ---------------------------------------------------------------------------
  // train: priors
  // ---------------------------------------------------------------------------

  datatype TrainError = PriorCountMismatch | MissingPrior | PriorOutOfRange

  /** Why a caller-supplied prior is rejected, if it is. */
  function PriorError(p: Option<real>): (r: Option<TrainError>)
    ensures r.None? <==> p.Some? && 0.0 <= p.value <= 1.0
    ensures p.None? ==> r == Some(MissingPrior)
    ensures p.Some? && (p.value < 0.0 || p.value > 1.0) ==> r == Some(PriorOutOfRange)
  {
    match p
    case None => Some(MissingPrior)
    case Some(v) => if v < 0.0 || v > 1.0 then Some(PriorOutOfRange) else None
  }

  /**
   How many priors, in iteration order, are accepted before the first rejected
   one: all before that position are accepted, and the one at it, if any, is
   rejected.
   */
  function AcceptedCount(keys: seq<Category>, priors: map<Category, Option<real>>): (a: nat)
    requires forall k | k in keys :: k in priors
    ensures a <= |keys|
    ensures forall j | 0 <= j < a :: PriorError(priors[keys[j]]).None?
    ensures a < |keys| ==> PriorError(priors[keys[a]]).Some?
  {
    if |keys| == 0 then 0
    else
      var prefix := keys[..|keys| - 1];
      var a := AcceptedCount(prefix, priors);
      assert forall j | 0 <= j < |prefix| :: prefix[j] == keys[j];
      if a < |prefix| || PriorError(priors[keys[|keys| - 1]]).Some? then a else |keys|
  }

  /** Every prior is accepted exactly when the accepted run covers all of them. */
  lemma AllAccepted(keys: seq<Category>, priors: map<Category, Option<real>>)
    requires forall k | k in keys :: k in priors
    ensures AcceptedCount(keys, priors) == |keys| <==> forall k | k in keys :: PriorError(priors[k]).None?
  {
    var a := AcceptedCount(keys, priors);
    if a == |keys| {
      forall k | k in keys ensures PriorError(priors[k]).None? {
        var j :| 0 <= j < |keys| && keys[j] == k;
      }
    } else {
      assert keys[a] in keys;
    }
  }

  datatype PriorLoad = PriorLoad(logPriors: OrderedMap<Category, real>, outcome: Outcome<TrainError>)

  /**
   The validation loop over caller-supplied priors: the accepted priors are
   stored as their logarithms in iteration order, and the first rejected one
   stops the loop with its error, leaving the priors stored before it in place.
   */
  function LoadPriors(keys: seq<Category>, priors: map<Category, Option<real>>, log: real -> real): (r: PriorLoad)
    requires forall k | k in keys :: k in priors
    requires Distinct(keys)
    ensures r.logPriors.Valid()
    ensures r.logPriors.keys == keys[..AcceptedCount(keys, priors)]
    ensures forall k | k in r.logPriors.entries ::
      k in keys && PriorError(priors[k]).None? && r.logPriors.entries[k] == log(priors[k].value)
    ensures r.outcome.Pass? <==> forall k | k in keys :: PriorError(priors[k]).None?
    ensures r.outcome.Fail? ==> r.outcome.error == PriorError(priors[keys[AcceptedCount(keys, priors)]]).value
  {
    var a := AcceptedCount(keys, priors);
    var accepted := keys[..a];
    assert forall k | k in accepted :: k in keys && PriorError(priors[k]).None? by {
      forall k | k in accepted ensures k in keys && PriorError(priors[k]).None? {
        var j :| 0 <= j < a && accepted[j] == k;
        assert keys[j] == k;
      }
    }
    assert Distinct(accepted);
    AllAccepted(keys, priors);
    var logPriors := OrderedMap(accepted, map k | k in accepted :: log(priors[k].value));
    if a == |keys| then PriorLoad(logPriors, Pass)
    else PriorLoad(logPriors, Fail(PriorError(priors[keys[a]]).value))
  }

  /** The prior ratio `count / n` of an observed category. */
  function Frequency(count: int, n: int): real
    requires n != 0
  {
    count as real / n as real
  }

  /**
   The estimation loop: every observed category gets the logarithm of its
   share of the sample, in the iteration order of the category counts.
   */
  function EstimatePriors(order: seq<Category>, counts: map<Category, int>, n: int, log: real -> real)
    : (r: OrderedMap<Category, real>)
    requires forall k | k in order :: k in counts
    requires Distinct(order)
    requires |order| == 0 || n != 0
    ensures r.Valid() && r.keys == order
    ensures forall k | k in r.entries :: r.entries[k] == log(Frequency(counts[k], n))
  {
    if |order| == 0 then Empty()
    else
      var previous := EstimatePriors(order[..|order| - 1], counts, n, log);
      var last := order[|order| - 1];
      assert last !in previous.entries;
      previous.Put(last, log(Frequency(counts[last], n)))
  }

  /** The shares that `EstimatePriors` takes logarithms of, added up. */
  function FrequencySum(order: seq<Category>, counts: map<Category, int>, n: int): real
    requires n != 0
  {
    if |order| == 0 then 0.0
    else FrequencySum(order[..|order| - 1], counts, n) + Frequency(Get0(counts, order[|order| - 1]), n)
  }

  lemma AddFractions(a: real, b: real, d: real)
    requires d != 0.0
    ensures a / d + b / d == (a + b) / d
  {
  }

  lemma {:induction false} FrequencySumIsRatio(order: seq<Category>, counts: map<Category, int>, n: int)
    requires n != 0
    ensures FrequencySum(order, counts, n) == SumAt(order, counts) as real / n as real
  {
    if |order| > 0 {
      var p := order[..|order| - 1];
      FrequencySumIsRatio(p, counts, n);
      AddFractions(SumAt(p, counts) as real, Get0(counts, order[|order| - 1]) as real, n as real);
    }
  }

  /** The estimated prior probabilities of a non-empty sample add up to one. */
  lemma EstimatedPriorsSumToOne(dataset: seq<Document>)
    requires ValidDataset(dataset) && |dataset| > 0
    ensures var s := ExtractFeatureStats(dataset);
      FrequencySum(s.categoryCounts.keys, s.categoryCounts.entries, s.n) == 1.0
  {
    var s := ExtractFeatureStats(dataset);
    CategoryCountsSumToN(dataset);
    WholeSample(s.categoryCounts.keys, s.categoryCounts.entries, s.n);
  }

  lemma WholeSample(order: seq<Category>, counts: map<Category, int>, n: int)
    requires n != 0 && SumAt(order, counts) == n
    ensures FrequencySum(order, counts, n) == 1.0
  {
    FrequencySumIsRatio(order, counts, n);
    SelfRatio(n);
  }

  // ---------------------------------------------------------------------------
  // train: feature mass and smoothed likelihoods
  // ---------------------------------------------------------------------------

  type JointCounts = OrderedMap<Token, OrderedMap<Category, int>>

  /** The joint counts of `c` over the listed features, absent counts as zero. */
  function MassOver(features: seq<Token>, joint: JointCounts, c: Category): (mass: int)
    ensures NonNegativeCounts(joint) ==> mass >= 0
  {
    if |features| == 0 then 0
    else MassOver(features[..|features| - 1], joint, c) + Get0(RowOf(joint, features[|features| - 1]).entries, c)
  }

  /** The total occurrence mass of category `c` over all retained features. */
  function FeatureMass(joint: JointCounts, c: Category): (mass: int)
    ensures joint.Valid() && NonNegativeCounts(joint) ==>
      forall f | f in joint.entries :: 0 <= Get0(joint.entries[f].entries, c) <= mass
  {
    FeatureMassBounds(joint, c);
    MassOver(joint.keys, joint, c)
  }

  lemma FeatureMassBounds(joint: JointCounts, c: Category)
    ensures joint.Valid() && NonNegativeCounts(joint) ==>
      forall f | f in joint.entries :: 0 <= Get0(joint.entries[f].entries, c) <= MassOver(joint.keys, joint, c)
  {
    if joint.Valid() && NonNegativeCounts(joint) {
      MassBoundsCount(joint.keys, joint, c);
      forall f | f in joint.entries
        ensures 0 <= Get0(joint.entries[f].entries, c) <= MassOver(joint.keys, joint, c)
      {
        assert RowOf(joint, f) == joint.entries[f];
      }
    }
  }

  /** Every stored joint count is non-negative. */
  ghost predicate NonNegativeCounts(joint: JointCounts) {
    forall f | f in joint.entries :: forall c | c in joint.entries[f].entries :: joint.entries[f].entries[c] >= 0
  }

  /** A category's mass is non-negative and at least the count of each listed feature. */
  lemma {:induction false} MassBoundsCount(features: seq<Token>, joint: JointCounts, c: Category)
    requires NonNegativeCounts(joint)
    ensures MassOver(features, joint, c) >= 0
    ensures forall f | f in features :: Get0(RowOf(joint, f).entries, c) <= MassOver(features, joint, c)
  {
    if |features| > 0 {
      var p := features[..|features| - 1];
      MassBoundsCount(p, joint, c);
      assert forall f :: f in features <==> f in p || f == features[|features| - 1];
    }
  }

  /** The add-one smoothed ratio of a count against its category's mass and the vocabulary size. */
  function SmoothedRatio(count: int, mass: int, d: int): real
    requires mass + d != 0
  {
    (count + 1) as real / (mass + d) as real
  }

  /** The smoothed ratio of retained feature `f` for category `c`. */
  function LikelihoodRatio(joint: JointCounts, f: Token, c: Category): real
    requires joint.Valid() && NonNegativeCounts(joint) && f in joint.entries
  {
    MassBoundsCount(joint.keys, joint, c);
    assert f in joint.keys;
    SmoothedRatio(Get0(joint.entries[f].entries, c), FeatureMass(joint, c), |joint.keys|)
  }

  /**
   The likelihood loop: for every retained feature and every category with a
   prior, the logarithm of the smoothed ratio.  The loop runs per category, so
   with no categories no feature gets an entry.
   */
  function LikelihoodTable(joint: JointCounts, logPriors: OrderedMap<Category, real>, log: real -> real)
    : (table: map<Token, map<Category, real>>)
    requires joint.Valid() && NonNegativeCounts(joint)
    ensures forall f :: f in table <==> f in joint.entries && |logPriors.keys| > 0
    ensures forall f | f in table :: table[f].Keys == logPriors.entries.Keys
    ensures forall f, c | f in table && c in table[f] :: table[f][c] == log(LikelihoodRatio(joint, f, c))
  {
    map f | f in joint.entries && |logPriors.keys| > 0 :: LikelihoodRow(joint, f, logPriors.entries.Keys, log)
  }

  /** The log likelihoods of one retained feature for the given categories. */
  function LikelihoodRow(joint: JointCounts, f: Token, categories: set<Category>, log: real -> real)
    : (row: map<Category, real>)
    requires joint.Valid() && NonNegativeCounts(joint) && f in joint.entries
    ensures row.Keys == categories
    ensures forall c | c in row :: row[c] == log(LikelihoodRatio(joint, f, c))
  {
    map c | c in categories :: log(LikelihoodRatio(joint, f, c))
  }

  /**
   Every smoothed ratio is a probability: above zero and at most one, because
   a count never exceeds its category's mass and the vocabulary is not empty.
   */
  lemma SmoothedRatioIsProbability(joint: JointCounts, f: Token, c: Category)
    requires joint.Valid() && NonNegativeCounts(joint) && f in joint.entries
    ensures 0.0 < LikelihoodRatio(joint, f, c) <= 1.0
  {
    MassBoundsCount(joint.keys, joint, c);
    assert f in joint.keys;
    var count := Get0(joint.entries[f].entries, c);
    assert count == Get0(RowOf(joint, f).entries, c);
    UnitRatio(count + 1, FeatureMass(joint, c) + |joint.keys|);
  }

  lemma UnitRatio(a: int, b: int)
    requires 0 < a <= b
    ensures 0.0 < a as real / b as real <= 1.0
  {
  }

  /** The smoothed ratios of the listed features for category `c`, added up. */
  function RatioSum(features: seq<Token>, joint: JointCounts, c: Category, mass: int, d: int): real
    requires mass + d != 0
  {
    if |features| == 0 then 0.0
    else
      var f := features[|features| - 1];
      RatioSum(features[..|features| - 1], joint, c, mass, d) + SmoothedRatio(Get0(RowOf(joint, f).entries, c), mass, d)
  }

  lemma {:induction false} RatioSumClosedForm(features: seq<Token>, joint: JointCounts, c: Category, mass: int, d: int)
    requires mass + d != 0
    ensures RatioSum(features, joint, c, mass, d) == (MassOver(features, joint, c) + |features|) as real / (mass + d) as real
  {
    if |features| > 0 {
      var p := features[..|features| - 1];
      RatioSumClosedForm(p, joint, c, mass, d);
      var count := Get0(RowOf(joint, features[|features| - 1]).entries, c);
      AddFractions((MassOver(p, joint, c) + |p|) as real, (count + 1) as real, (mass + d) as real);
    }
  }

  /**
   For every category the smoothed likelihoods of the retained features form a
   distribution: their ratios add up to one whenever some feature is retained.
   */
  lemma LikelihoodsSumToOne(joint: JointCounts, c: Category)
    requires joint.Valid() && NonNegativeCounts(joint) && |joint.keys| > 0
    ensures FeatureMass(joint, c) + |joint.keys| > 0
    ensures RatioSum(joint.keys, joint, c, FeatureMass(joint, c), |joint.keys|) == 1.0
  {
    MassBoundsCount(joint.keys, joint, c);
    RatioSumClosedForm(joint.keys, joint, c, FeatureMass(joint, c), |joint.keys|);
    SelfRatio(FeatureMass(joint, c) + |joint.keys|);
  }

  lemma SelfRatio(x: int)
    requires x != 0
    ensures x as real / x as real == 1.0
  {
  }

  // ---------------------------------------------------------------------------
  // train
  // ---------------------------------------------------------------------------

  /** The knowledge base a training call leaves behind, and whether the call completed. */
  datatype Fitted = Fitted(kb: KnowledgeBase, outcome: Outcome<TrainError>)

  /** The statistics a training call fits: counts over well-formed maps, all at least one. */
  lemma WellFormedCountsNonNegative(stats: FeatureStats)
    requires WellFormed(stats)
    ensures NonNegativeCounts(stats.featureCategoryJointCount)
  {
  }

  /**
   The body of `train` after feature selection.  The new knowledge base holds
   `n` and the retained vocabulary size `d` before the priors are examined.
   Without priors the observed categories get their estimated log priors.
   With priors, a count different from the number of observed categories, a
   missing prior or one outside [0, 1] stops the call; the knowledge base
   built so far (no likelihoods, the priors accepted so far) stays.
   */
  function Fit(stats: FeatureStats, categoryPriors: Option<OrderedMap<Category, Option<real>>>, log: real -> real)
    : (r: Fitted)
    requires WellFormed(stats)
    requires categoryPriors.Some? ==> categoryPriors.value.Valid()
    ensures r.kb.n == stats.n && r.kb.d == |stats.featureCategoryJointCount.keys|
    ensures Dense(r.kb)
    ensures r.outcome.Fail? ==> r.kb.logLikelihoods == map[]
    ensures r.outcome.Pass? ==> r.kb.logLikelihoods == LikelihoodTable(stats.featureCategoryJointCount, r.kb.logPriors, log)
  {
    var joint := stats.featureCategoryJointCount;
    var counts := stats.categoryCounts;
    WellFormedCountsNonNegative(stats);
    match categoryPriors
    case None =>
      assert |counts.keys| == 0 || counts.keys[0] in counts.entries;
      var logPriors := EstimatePriors(counts.keys, counts.entries, stats.n, log);
      Fitted(KnowledgeBase(stats.n, |joint.keys|, |counts.keys|, logPriors, LikelihoodTable(joint, logPriors, log)), Pass)
    case Some(priors) =>
      var c := |priors.keys|;
      if c != |counts.keys| then
        Fitted(KnowledgeBase(stats.n, |joint.keys|, c, Empty(), map[]), Fail(PriorCountMismatch))
      else
        var load := LoadPriors(priors.keys, priors.entries, log);
        if load.outcome.Fail? then
          Fitted(KnowledgeBase(stats.n, |joint.keys|, c, load.logPriors, map[]), load.outcome)
        else
          Fitted(KnowledgeBase(stats.n, |joint.keys|, c, load.logPriors, LikelihoodTable(joint, load.logPriors, log)), Pass)
  }

  /** The outcome of a training call and the classifier it leaves. */
  datatype TrainResult = TrainResult(classifier: Classifier, outcome: Outcome<TrainError>)

  /**
   `train`: the tokenised examples are counted and pruned, and the fitted
   knowledge base replaces the classifier's own, whether or not the call
   completes.  The threshold is kept, the installed knowledge base is always
   dense, and it counts every example.
   */
  function Train(
      model: Classifier, trainingDataset: OrderedMap<Category, seq<Text>>,
      categoryPriors: Option<OrderedMap<Category, Option<real>>>,
      tokenize: Text -> OrderedMap<Token, int>, log: real -> real)
    : (r: TrainResult)
    requires trainingDataset.Valid()
    requires categoryPriors.Some? ==> categoryPriors.value.Valid()
    requires forall t :: tokenize(t).Valid()
    ensures r.classifier.chisquareCriticalValue == model.chisquareCriticalValue
    ensures r.classifier.knowledgeBase.Some?
    ensures Dense(r.classifier.knowledgeBase.value)
    ensures r.classifier.knowledgeBase.value.n == |PreprocessDataset(trainingDataset, tokenize)|
  {
    var dataset := PreprocessDataset(trainingDataset, tokenize);
    var stats := SelectFeatures(dataset, model.chisquareCriticalValue);
    var fitted := Fit(stats, categoryPriors, log);
    TrainResult(Classifier(model.chisquareCriticalValue, Some(fitted.kb)), fitted.outcome)
  }

  /** The one-argument `train`: priors are estimated from the sample and the call always completes. */
  function TrainEstimated(
      model: Classifier, trainingDataset: OrderedMap<Category, seq<Text>>,
      tokenize: Text -> OrderedMap<Token, int>, log: real -> real)
    : (r: TrainResult)
    requires trainingDataset.Valid()
    requires forall t :: tokenize(t).Valid()
    ensures r.outcome.Pass?
    ensures r.classifier.knowledgeBase.Some? && Dense(r.classifier.knowledgeBase.value)
  {
    Train(model, trainingDataset, None, tokenize, log)
  }

  /** The priors a fitted knowledge base holds, and when fitting completes. */
  lemma FitPriors(stats: FeatureStats, categoryPriors: Option<OrderedMap<Category, Option<real>>>, log: real -> real)
    requires WellFormed(stats)
    requires categoryPriors.Some? ==> categoryPriors.value.Valid()
    ensures var r := Fit(stats, categoryPriors, log);
      && (categoryPriors.None? ==>
            && r.outcome.Pass?
            && r.kb.c == |stats.categoryCounts.keys|
            && r.kb.logPriors.keys == stats.categoryCounts.keys
            && forall k | k in r.kb.logPriors.entries :: stats.n > 0 &&
                 r.kb.logPriors.entries[k] == log(Frequency(stats.categoryCounts.entries[k], stats.n)))
      && (categoryPriors.Some? ==>
            var priors := categoryPriors.value;
            && r.kb.c == |priors.keys|
            && (r.outcome.Pass? <==>
                  |priors.keys| == |stats.categoryCounts.keys| && forall k | k in priors.entries :: PriorError(priors.entries[k]).None?)
            && (r.outcome == Fail(PriorCountMismatch) <==> |priors.keys| != |stats.categoryCounts.keys|)
            && (r.outcome.Pass? ==> r.kb.logPriors.keys == priors.keys)
            && forall k | k in r.kb.logPriors.entries ::
                 k in priors.entries && PriorError(priors.entries[k]).None?
                 && r.kb.logPriors.entries[k] == log(priors.entries[k].value))
  {
    var r := Fit(stats, categoryPriors, log);
    if categoryPriors.None? && |stats.categoryCounts.keys| > 0 {
      assert stats.categoryCounts.keys[0] in stats.categoryCounts.entries;
    }
    if categoryPriors.Some? {
      var priors := categoryPriors.value;
      if |priors.keys| == |stats.categoryCounts.keys| {
        var load := LoadPriors(priors.keys, priors.entries, log);
        assert load.outcome.Pass? <==> forall k | k in priors.entries :: PriorError(priors.entries[k]).None?;
      }
    }
  }

  /** The categories with at least one training example. */
  function NonEmptyCategories(trainingDataset: OrderedMap<Category, seq<Text>>): set<Category> {
    set c | c in trainingDataset.entries && |trainingDataset.entries[c]| > 0
  }

  /**
   The observed categories of a training call are exactly the categories with
   at least one example, and each is counted once per example.
   */
  lemma ObservedCategories(trainingDataset: OrderedMap<Category, seq<Text>>, tokenize: Text -> OrderedMap<Token, int>)
    requires trainingDataset.Valid()
    requires forall t :: tokenize(t).Valid()
    ensures var counts := ExtractFeatureStats(PreprocessDataset(trainingDataset, tokenize)).categoryCounts;
      && counts.entries.Keys == NonEmptyCategories(trainingDataset)
      && |counts.keys| == |NonEmptyCategories(trainingDataset)|
      && forall c | c in counts.entries :: counts.entries[c] == |trainingDataset.entries[c]|
  {
    var dataset := PreprocessDataset(trainingDataset, tokenize);
    var counts := ExtractFeatureStats(dataset).categoryCounts;
    ExtractFeatureStatsCounts(dataset);
    forall c ensures c in counts.entries <==> c in NonEmptyCategories(trainingDataset) {
      PreprocessCountsExamples(trainingDataset, tokenize, c);
    }
    forall c | c in counts.entries ensures counts.entries[c] == |trainingDataset.entries[c]| {
      PreprocessCountsExamples(trainingDataset, tokenize, c);
    }
    DistinctCardinality(counts.keys);
    assert (set x | x in counts.keys) == counts.entries.Keys;
  }

  /**
   A training call fails exactly when priors are given and either their number
   differs from the number of categories with examples or one of them is
   missing or outside [0, 1].  A failed call still installs a knowledge base:
   one without likelihoods, holding only priors that were accepted.
   */
  lemma TrainOutcome(
      model: Classifier, trainingDataset: OrderedMap<Category, seq<Text>>,
      categoryPriors: Option<OrderedMap<Category, Option<real>>>,
      tokenize: Text -> OrderedMap<Token, int>, log: real -> real)
    requires trainingDataset.Valid()
    requires categoryPriors.Some? ==> categoryPriors.value.Valid()
    requires forall t :: tokenize(t).Valid()
    ensures var r := Train(model, trainingDataset, categoryPriors, tokenize, log);
      && (r.outcome.Pass? <==>
            || categoryPriors.None?
            || (&& |categoryPriors.value.keys| == |NonEmptyCategories(trainingDataset)|
                && forall k | k in categoryPriors.value.entries :: PriorError(categoryPriors.value.entries[k]).None?))
      && (r.outcome.Fail? ==>
            var kb := r.classifier.knowledgeBase.value;
            && kb.logLikelihoods == map[]
            && forall k | k in kb.logPriors.entries ::
                 k in categoryPriors.value.entries && PriorError(categoryPriors.value.entries[k]).None?)
  {
    var dataset := PreprocessDataset(trainingDataset, tokenize);
    var stats := SelectFeatures(dataset, model.chisquareCriticalValue);
    ObservedCategories(trainingDataset, tokenize);
    FitPriors(stats, categoryPriors, log);
  }

  /**
   Without priors the installed priors are those of the categories with
   examples, each the logarithm of its share of all examples.
   */
  lemma EstimatedTrainPriors(
      model: Classifier, trainingDataset: OrderedMap<Category, seq<Text>>,
      tokenize: Text -> OrderedMap<Token, int>, log: real -> real)
    requires trainingDataset.Valid()
    requires forall t :: tokenize(t).Valid()
    ensures var kb := Train(model, trainingDataset, None, tokenize, log).classifier.knowledgeBase.value;
      && kb.logPriors.entries.Keys == NonEmptyCategories(trainingDataset)
      && kb.c == |NonEmptyCategories(trainingDataset)|
      && forall c | c in kb.logPriors.entries :: kb.n > 0 &&
           kb.logPriors.entries[c] == log(Frequency(|trainingDataset.entries[c]|, kb.n))
  {
    var stats := TrainFits(model, trainingDataset, None, tokenize, log);
    ObservedCategories(trainingDataset, tokenize);
    EstimatedFit(stats, log);
  }

  /** The statistics a training call fits, and the knowledge base it installs. */
  lemma TrainFits(
      model: Classifier, trainingDataset: OrderedMap<Category, seq<Text>>,
      categoryPriors: Option<OrderedMap<Category, Option<real>>>,
      tokenize: Text -> OrderedMap<Token, int>, log: real -> real)
    returns (stats: FeatureStats)
    requires trainingDataset.Valid()
    requires categoryPriors.Some? ==> categoryPriors.value.Valid()
    requires forall t :: tokenize(t).Valid()
    ensures WellFormed(stats)
    ensures stats.categoryCounts == ExtractFeatureStats(PreprocessDataset(trainingDataset, tokenize)).categoryCounts
    ensures var r := Train(model, trainingDataset, categoryPriors, tokenize, log);
      r.classifier.knowledgeBase == Some(Fit(stats, categoryPriors, log).kb) && r.outcome == Fit(stats, categoryPriors, log).outcome
  {
    stats := SelectFeatures(PreprocessDataset(trainingDataset, tokenize), model.chisquareCriticalValue);
  }

  /** Without priors, the fitted priors are keyed by the observed categories. */
  lemma EstimatedFit(stats: FeatureStats, log: real -> real)
    requires WellFormed(stats)
    ensures var kb := Fit(stats, None, log).kb;
      && kb.logPriors.entries.Keys == stats.categoryCounts.entries.Keys
      && kb.c == |stats.categoryCounts.keys|
      && kb.n == stats.n
      && forall c | c in kb.logPriors.entries :: stats.n > 0 &&
           kb.logPriors.entries[c] == log(Frequency(stats.categoryCounts.entries[c], stats.n))
  {
    FitPriors(stats, None, log);
    var kb := Fit(stats, None, log).kb;
    assert kb.logPriors.Valid() && stats.categoryCounts.Valid();
  }

  /**
   A completed training call installs the smoothed likelihood of every selected
   feature for every category with a prior.
   */
  lemma TrainedLikelihoods(
      model: Classifier, trainingDataset: OrderedMap<Category, seq<Text>>,
      categoryPriors: Option<OrderedMap<Category, Option<real>>>,
      tokenize: Text -> OrderedMap<Token, int>, log: real -> real)
    requires trainingDataset.Valid()
    requires categoryPriors.Some? ==> categoryPriors.value.Valid()
    requires forall t :: tokenize(t).Valid()
    ensures var r := Train(model, trainingDataset, categoryPriors, tokenize, log);
      var kb := r.classifier.knowledgeBase.value;
      var stats := SelectFeatures(PreprocessDataset(trainingDataset, tokenize), model.chisquareCriticalValue);
      && stats.featureCategoryJointCount.Valid()
      && NonNegativeCounts(stats.featureCategoryJointCount)
      && kb.d == |stats.featureCategoryJointCount.keys|
      && (r.outcome.Pass? ==> kb.logLikelihoods == LikelihoodTable(stats.featureCategoryJointCount, kb.logPriors, log))
  {
    var stats := SelectFeatures(PreprocessDataset(trainingDataset, tokenize), model.chisquareCriticalValue);
    WellFormedCountsNonNegative(stats);
  }

  // ---------------------------------------------------------------------------
  // predict
  // ---------------------------------------------------------------------------

  /**
   The inner scoring loop: the occurrence-weighted log likelihoods of `c` for
   the listed tokens, skipping tokens outside the vocabulary.
   */
  function Evidence(kb: KnowledgeBase, tokens: seq<Token>, counts: map<Token, int>, c: Category): (e: real)
    requires forall t | t in tokens :: t in counts
    requires forall t | t in tokens && t in kb.logLikelihoods :: c in kb.logLikelihoods[t]
    ensures OutsideVocabulary(kb, tokens) ==> e == 0.0
  {
    if |tokens| == 0 then 0.0
    else
      var t := tokens[|tokens| - 1];
      var previous := Evidence(kb, tokens[..|tokens| - 1], counts, c);
      if t !in kb.logLikelihoods then previous
      else previous + counts[t] as real * kb.logLikelihoods[t][c]
  }

  /** Non-negative counts of tokens with likelihood at most one never raise a score. */
  lemma {:induction false} EvidenceNonPositive(kb: KnowledgeBase, tokens: seq<Token>, counts: map<Token, int>, c: Category)
    requires forall t | t in tokens :: t in counts
    requires forall t | t in tokens && t in kb.logLikelihoods :: c in kb.logLikelihoods[t]
    ensures NonPositiveTerms(kb, tokens, counts, c) ==> Evidence(kb, tokens, counts, c) <= 0.0
  {
    if |tokens| > 0 && NonPositiveTerms(kb, tokens, counts, c) {
      var prefix, t := tokens[..|tokens| - 1], tokens[|tokens| - 1];
      assert forall x | x in prefix :: x in tokens;
      EvidenceNonPositive(kb, prefix, counts, c);
      if t in kb.logLikelihoods {
        NonPositiveTerm(counts[t], kb.logLikelihoods[t][c]);
      }
    }
  }

  /** No listed token is in the vocabulary. */
  predicate OutsideVocabulary(kb: KnowledgeBase, tokens: seq<Token>) {
    forall t | t in tokens :: t !in kb.logLikelihoods
  }

  /**
   Every listed vocabulary token occurs a non-negative number of times and has a
   non-positive log likelihood for `c` (a likelihood of at most one).
   */
  predicate NonPositiveTerms(kb: KnowledgeBase, tokens: seq<Token>, counts: map<Token, int>, c: Category)
    requires forall t | t in tokens :: t in counts
    requires forall t | t in tokens && t in kb.logLikelihoods :: c in kb.logLikelihoods[t]
  {
    forall t | t in tokens && t in kb.logLikelihoods :: counts[t] >= 0 && kb.logLikelihoods[t][c] <= 0.0
  }

  lemma NonPositiveTerm(k: int, x: real)
    ensures k >= 0 && x <= 0.0 ==> k as real * x <= 0.0
  {
  }

  /** The score of category `c` for a tokenised text: its log prior plus the evidence. */
  function CategoryScore(kb: KnowledgeBase, doc: OrderedMap<Token, int>, c: Category): (score: real)
    requires Dense(kb) && doc.Valid() && c in kb.logPriors.entries
    ensures OutsideVocabulary(kb, doc.keys) ==> score == kb.logPriors.entries[c]
    ensures NonPositiveTerms(kb, doc.keys, doc.entries, c) ==> score <= kb.logPriors.entries[c]
  {
    EvidenceNonPositive(kb, doc.keys, doc.entries, c);
    kb.logPriors.entries[c] + Evidence(kb, doc.keys, doc.entries, c)
  }

  /**
   The outer scoring loop: a category replaces the leader only with a strictly
   higher score, so the result has the highest score and nothing listed before
   it reaches that score.  With no categories there is no leader.
   */
  function Leader(categories: seq<Category>, scores: map<Category, real>): (r: Option<Category>)
    requires forall c | c in categories :: c in scores
    ensures r.None? <==> |categories| == 0
    ensures r.Some? ==> r.value in categories && forall c | c in categories :: scores[c] <= scores[r.value]
  {
    if |categories| == 0 then None
    else
      var prefix := categories[..|categories| - 1];
      var c := categories[|categories| - 1];
      var previous := Leader(prefix, scores);
      assert forall x :: x in categories <==> x in prefix || x == c;
      if previous.None? || scores[c] > scores[previous.value] then Some(c) else previous
  }

  /** The leader is the first listed category with the highest score: ties never replace it. */
  lemma {:induction false} LeaderIsFirstMaximum(categories: seq<Category>, scores: map<Category, real>)
    requires forall c | c in categories :: c in scores
    ensures var r := Leader(categories, scores);
      r.Some? ==> exists i | 0 <= i < |categories| ::
        && categories[i] == r.value
        && forall j | 0 <= j < i :: scores[categories[j]] < scores[r.value]
  {
    if |categories| > 0 {
      var prefix := categories[..|categories| - 1];
      var c := categories[|categories| - 1];
      var previous := Leader(prefix, scores);
      LeaderIsFirstMaximum(prefix, scores);
      if previous.None? || scores[c] > scores[previous.value] {
        var i := |categories| - 1;
        forall j | 0 <= j < i ensures scores[categories[j]] < scores[c] {
          assert categories[j] == prefix[j];
          assert prefix[j] in prefix;
        }
      } else {
        var i :| 0 <= i < |prefix| && prefix[i] == previous.value &&
          forall j | 0 <= j < i :: scores[prefix[j]] < scores[previous.value];
        assert forall j | 0 <= j < i :: categories[j] == prefix[j];
        assert categories[i] == prefix[i];
      }
    }
  }

  /** The answer of a prediction: no knowledge base, or the leading category if there is one. */
  datatype Answer = KnowledgeBaseMissing | Answer(category: Option<Category>)

  /** The scores of all categories with a prior, for a tokenised text. */
  function Scores(kb: KnowledgeBase, doc: OrderedMap<Token, int>): (scores: map<Category, real>)
    requires Dense(kb) && doc.Valid()
    ensures scores.Keys == kb.logPriors.entries.Keys
  {
    map c | c in kb.logPriors.entries :: CategoryScore(kb, doc, c)
  }

  /**
   `predict`: fails without a knowledge base; otherwise answers the category
   with the highest score, none when there are no categories.
   */
  function Predict(model: Classifier, text: Text, tokenize: Text -> OrderedMap<Token, int>): (r: Answer)
    requires forall t :: tokenize(t).Valid()
    requires model.knowledgeBase.Some? ==> Dense(model.knowledgeBase.value)
    ensures r.KnowledgeBaseMissing? <==> model.knowledgeBase.None?
    ensures r.Answer? ==> (r.category.None? <==> model.knowledgeBase.value.logPriors.entries == map[])
    ensures r.Answer? && r.category.Some? ==>
      var kb, doc := model.knowledgeBase.value, tokenize(text);
      && r.category.value in kb.logPriors.entries
      && forall c | c in kb.logPriors.entries :: CategoryScore(kb, doc, c) <= CategoryScore(kb, doc, r.category.value)
  {
    match model.knowledgeBase
    case None => KnowledgeBaseMissing
    case Some(kb) =>
      var doc := tokenize(text);
      assert kb.logPriors.entries == map[] <==> |kb.logPriors.keys| == 0 by {
        if |kb.logPriors.keys| > 0 {
          assert kb.logPriors.keys[0] in kb.logPriors.entries;
        }
      }
      Answer(Leader(kb.logPriors.keys, Scores(kb, doc)))
  }

  /**
   Among categories with the highest score, the prediction is the first in the
   iteration order of the priors: every category listed before it scores
   strictly less.
   */
  lemma PredictFirstMaximum(model: Classifier, text: Text, tokenize: Text -> OrderedMap<Token, int>)
    requires forall t :: tokenize(t).Valid()
    requires model.knowledgeBase.Some? && Dense(model.knowledgeBase.value)
    ensures var r := Predict(model, text, tokenize);
      var kb, doc := model.knowledgeBase.value, tokenize(text);
      r.category.Some? ==> exists i | 0 <= i < |kb.logPriors.keys| ::
        && kb.logPriors.keys[i] == r.category.value
        && forall j | 0 <= j < i :: CategoryScore(kb, doc, kb.logPriors.keys[j]) < CategoryScore(kb, doc, r.category.value)
  {
    var kb, doc := model.knowledgeBase.value, tokenize(text);
    LeaderIsFirstMaximum(kb.logPriors.keys, Scores(kb, doc));
  }

  /** Only the counts of known tokens matter to the evidence. */
  lemma {:induction false} EvidenceReadsKnownCounts(
      kb: KnowledgeBase, tokens: seq<Token>, counts: map<Token, int>, counts': map<Token, int>, c: Category)
    requires forall t | t in tokens :: t in counts && t in counts'
    requires forall t | t in tokens && t in kb.logLikelihoods :: c in kb.logLikelihoods[t] && counts[t] == counts'[t]
    ensures Evidence(kb, tokens, counts, c) == Evidence(kb, tokens, counts', c)
  {
    if |tokens| > 0 {
      var prefix := tokens[..|tokens| - 1];
      assert forall t | t in prefix :: t in tokens;
      EvidenceReadsKnownCounts(kb, prefix, counts, counts', c);
    }
  }

  /** A token outside the vocabulary, at any count, leaves every score unchanged. */
  lemma UnknownTokenIgnored(kb: KnowledgeBase, doc: OrderedMap<Token, int>, t: Token, k: int, c: Category)
    requires Dense(kb) && doc.Valid() && c in kb.logPriors.entries
    requires t !in kb.logLikelihoods
    ensures CategoryScore(kb, doc.Put(t, k), c) == CategoryScore(kb, doc, c)
  {
    var doc' := doc.Put(t, k);
    if t in doc.entries {
      EvidenceReadsKnownCounts(kb, doc.keys, doc.entries, doc'.entries, c);
    } else {
      assert doc'.keys[..|doc'.keys| - 1] == doc.keys;
      EvidenceReadsKnownCounts(kb, doc.keys, doc.entries, doc'.entries, c);
      assert Evidence(kb, doc'.keys, doc'.entries, c) == Evidence(kb, doc.keys, doc'.entries, c);
    }
  }

  /** The leader depends only on the scores of the listed categories. */
  lemma {:induction false} LeaderReadsListedScores(categories: seq<Category>, scores: map<Category, real>, scores': map<Category, real>)
    requires forall c | c in categories :: c in scores && c in scores' && scores[c] == scores'[c]
    ensures Leader(categories, scores) == Leader(categories, scores')
  {
    if |categories| > 0 {
      var p := categories[..|categories| - 1];
      assert forall c | c in p :: c in categories;
      LeaderReadsListedScores(p, scores, scores');
    }
  }

  /** Two texts whose token maps differ only by an unknown token get the same answer. */
  lemma PredictIgnoresUnknownToken(
      model: Classifier, text: Text, text': Text, t: Token, k: int, tokenize: Text -> OrderedMap<Token, int>)
    requires forall x :: tokenize(x).Valid()
    requires model.knowledgeBase.Some? && Dense(model.knowledgeBase.value)
    requires t !in model.knowledgeBase.value.logLikelihoods
    requires tokenize(text') == tokenize(text).Put(t, k)
    ensures Predict(model, text', tokenize) == Predict(model, text, tokenize)
  {
    var kb := model.knowledgeBase.value;
    var doc, doc' := tokenize(text), tokenize(text');
    var scores, scores' := Scores(kb, doc), Scores(kb, doc');
    forall c | c in kb.logPriors.keys ensures c in scores && c in scores' && scores[c] == scores'[c] {
      UnknownTokenIgnored(kb, doc, t, k, c);
    }
    LeaderReadsListedScores(kb.logPriors.keys, scores, scores');
  }

  lemma {:induction false} EvidenceWithoutVocabulary(kb: KnowledgeBase, tokens: seq<Token>, counts: map<Token, int>, c: Category)
    requires kb.logLikelihoods == map[]
    requires forall t | t in tokens :: t in counts
    ensures Evidence(kb, tokens, counts, c) == 0.0
  {
    if |tokens| > 0 {
      EvidenceWithoutVocabulary(kb, tokens[..|tokens| - 1], counts, c);
    }
  }

  /** With an empty vocabulary every text gets the category with the highest prior, the first one on ties. */
  lemma EmptyVocabularyPicksHighestPrior(model: Classifier, text: Text, tokenize: Text -> OrderedMap<Token, int>)
    requires forall x :: tokenize(x).Valid()
    requires model.knowledgeBase.Some? && Dense(model.knowledgeBase.value)
    requires model.knowledgeBase.value.logLikelihoods == map[]
    ensures var kb := model.knowledgeBase.value;
      Predict(model, text, tokenize) == Answer(Leader(kb.logPriors.keys, kb.logPriors.entries))
  {
    var kb, doc := model.knowledgeBase.value, tokenize(text);
    var scores := Scores(kb, doc);
    forall c | c in kb.logPriors.keys ensures c in scores && scores[c] == kb.logPriors.entries[c] {
      EvidenceWithoutVocabulary(kb, doc.keys, doc.entries, c);
    }
    LeaderReadsListedScores(kb.logPriors.keys, scores, kb.logPriors.entries);
  }

  // ---------------------------------------------------------------------------
  // A failed training call
  // ---------------------------------------------------------------------------

  /**
   As written, a rejected training call does not leave the classifier as it
   was: whatever vocabulary the classifier had is lost.
   */
  lemma FailedTrainLosesVocabulary(
      model: Classifier, trainingDataset: OrderedMap<Category, seq<Text>>,
      categoryPriors: Option<OrderedMap<Category, Option<real>>>,
      tokenize: Text -> OrderedMap<Token, int>, log: real -> real)
    requires trainingDataset.Valid()
    requires categoryPriors.Some? ==> categoryPriors.value.Valid()
    requires forall t :: tokenize(t).Valid()
    requires model.knowledgeBase.Some? && model.knowledgeBase.value.logLikelihoods != map[]
    ensures var r := Train(model, trainingDataset, categoryPriors, tokenize, log);
      r.outcome.Fail? ==> r.classifier.knowledgeBase.value.logLikelihoods == map[] && r.classifier != model
  {
    TrainOutcome(model, trainingDataset, categoryPriors, tokenize, log);
  }

  /**
   A classifier that answers "spam" is retrained on no examples with a prior
   for "spam": the call is rejected, yet the classifier now answers nothing.
   */
  lemma FailedTrainExample(text: Text, tokenize: Text -> OrderedMap<Token, int>, log: real -> real)
    requires forall t :: tokenize(t).Valid()
    ensures var kb := KnowledgeBase(1, 0, 1, OrderedMap(["spam"], map["spam" := 0.0]), map[]);
      var model := Loaded(kb);
      var r := Train(model, OrderedMap([], map[]), Some(OrderedMap(["spam"], map["spam" := Some(1.0)])), tokenize, log);
      && Dense(kb)
      && Predict(model, text, tokenize) == Answer(Some("spam"))
      && r.outcome == Fail(PriorCountMismatch)
      && Predict(r.classifier, text, tokenize) == Answer(None)
  {
    var kb := KnowledgeBase(1, 0, 1, OrderedMap(["spam"], map["spam" := 0.0]), map[]);
    var model := Loaded(kb);
    var trainingDataset: OrderedMap<Category, seq<Text>> := OrderedMap([], map[]);
    var priors := OrderedMap(["spam"], map["spam" := Some(1.0)]);
    assert Leader(["spam"], Scores(kb, tokenize(text))) == Some("spam") by {
      assert ["spam"][..0] == [];
    }
    var dataset := PreprocessDataset(trainingDataset, tokenize);
    assert dataset == [];
    var stats := SelectFeatures(dataset, model.chisquareCriticalValue);
    assert stats.categoryCounts == Empty();
    var r := Train(model, trainingDataset, Some(priors), tokenize, log);
    assert r.classifier.knowledgeBase.value == KnowledgeBase(0, |stats.featureCategoryJointCount.keys|, 1, Empty(), map[]);
  }

  /**
   The evidently intended training call: the same verdict, but a rejected call
   leaves the classifier exactly as it was, while a completed one installs a
   dense knowledge base.
   */
  function TrainAtomic(
      model: Classifier, trainingDataset: OrderedMap<Category, seq<Text>>,
      categoryPriors: Option<OrderedMap<Category, Option<real>>>,
      tokenize: Text -> OrderedMap<Token, int>, log: real -> real)
    : (r: TrainResult)
    requires trainingDataset.Valid()
    requires categoryPriors.Some? ==> categoryPriors.value.Valid()
    requires forall t :: tokenize(t).Valid()
    ensures r.outcome.Pass? <==>
      || categoryPriors.None?
      || (&& |categoryPriors.value.keys| == |NonEmptyCategories(trainingDataset)|
          && forall k | k in categoryPriors.value.entries :: PriorError(categoryPriors.value.entries[k]).None?)
    ensures r.outcome.Fail? ==> r.classifier == model
    ensures r.outcome.Pass? ==>
      && r.classifier.chisquareCriticalValue == model.chisquareCriticalValue
      && r.classifier.knowledgeBase.Some?
      && Dense(r.classifier.knowledgeBase.value)
  {
    TrainOutcome(model, trainingDataset, categoryPriors, tokenize, log);
    var attempt := Train(model, trainingDataset, categoryPriors, tokenize, log);
    if attempt.outcome.Fail? then TrainResult(model, attempt.outcome) else attempt
  }
}

=== FILE: prediction.dfy ===
/**
 Ranking of category scores.

 A prediction pairs a category with its score and compares by score alone,
 highest first.  A ranking is built by inserting one prediction per map entry,
 in the map's iteration order, into a tree-ordered set; the set is modelled by
 its iteration sequence.  Because two predictions with equal scores compare as
 equal, the set treats the second as a duplicate and keeps the first.
 */
module Predictions {
  import opened Collections
  import opened DataObjects

  datatype Prediction = Prediction(category: Category, score: real)

  /** Three-way comparison of two doubles, as `Double.compare` orders non-NaN values. */
  function CompareScores(a: real, b: real): (r: int)
    ensures r == -1 || r == 0 || r == 1
    ensures r < 0 <==> a < b
    ensures r == 0 <==> a == b
  {
    if a < b then -1 else if a > b then 1 else 0
  }

  /** Reverse order by score: negative when `self` scores higher, so it comes first. */
  function CompareTo(self: Prediction, other: Prediction): (r: int)
    ensures r == -1 || r == 0 || r == 1
    ensures r < 0 <==> self.score > other.score
    ensures r > 0 <==> self.score < other.score
    ensures r == 0 <==> self.score == other.score
  {
    CompareScores(other.score, self.score)
  }

  /** The comparison is a total preorder: antisymmetric in sign and transitive. */
  lemma CompareToIsTotalPreorder(a: Prediction, b: Prediction, c: Prediction)
    ensures CompareTo(a, b) == -CompareTo(b, a)
    ensures CompareTo(a, b) <= 0 && CompareTo(b, c) <= 0 ==> CompareTo(a, c) <= 0
    ensures CompareTo(a, b) == 0 ==> CompareTo(a, c) == CompareTo(b, c)
  {
  }

  /** The comparison ignores the category: different predictions can compare equal. */
  lemma CompareToIgnoresCategory()
    ensures var a, b := Prediction("a", 1.0), Prediction("b", 1.0);
      a != b && CompareTo(a, b) == 0
  {
  }

  /** The iteration order of a tree set under this comparison. */
  ghost predicate StrictlyDescending(s: seq<Prediction>) {
    forall i, j | 0 <= i < j < |s| :: s[i].score > s[j].score
  }

  /** The scores of a sequence of predictions, position by position. */
  function ScoresOf(s: seq<Prediction>): (r: seq<real>)
    ensures |r| == |s| && forall i | 0 <= i < |s| :: r[i] == s[i].score
  {
    if |s| == 0 then [] else ScoresOf(s[..|s| - 1]) + [s[|s| - 1].score]
  }

  /**
   Tree-set insertion: the element goes before the first element it compares
   below; when some element compares equal the set is left unchanged.
   */
  function Add(s: seq<Prediction>, p: Prediction): (r: seq<Prediction>)
    requires StrictlyDescending(s)
    ensures StrictlyDescending(r)
    ensures p.score in ScoresOf(s) ==> r == s
    ensures p.score !in ScoresOf(s) ==> |r| == |s| + 1 && forall q :: q in r <==> q in s || q == p
  {
    AddEffect(s, p);
    Insert(s, p)
  }

  /** The search down the ordered elements that `Add` performs. */
  function Insert(s: seq<Prediction>, p: Prediction): (r: seq<Prediction>)
    ensures forall q | q in s :: q in r
    ensures forall q | q in r :: q in s || q == p
    ensures |s| <= |r| <= |s| + 1
  {
    if |s| == 0 then [p]
    else if CompareTo(p, s[0]) < 0 then [p] + s
    else if CompareTo(p, s[0]) == 0 then s
    else [s[0]] + Insert(s[1..], p)
  }

  lemma {:induction false} AddEffect(s: seq<Prediction>, p: Prediction)
    requires StrictlyDescending(s)
    ensures var r := Insert(s, p);
      && StrictlyDescending(r)
      && (p.score in ScoresOf(s) ==> r == s)
      && (p.score !in ScoresOf(s) ==> |r| == |s| + 1 && forall q :: q in r <==> q in s || q == p)
  {
    if |s| == 0 {
      assert ScoresOf(s) == [];
    } else if CompareTo(p, s[0]) < 0 {
      AddInFront(s, p);
    } else if CompareTo(p, s[0]) == 0 {
      assert ScoresOf(s)[0] == p.score;
    } else {
      var tail := s[1..];
      assert StrictlyDescending(tail);
      AddEffect(tail, p);
      AddBehind(s, p, Insert(tail, p));
    }
  }

  /** Inserting behind the first element leaves it first. */
  lemma AddBehind(s: seq<Prediction>, p: Prediction, rest: seq<Prediction>)
    requires StrictlyDescending(s) && |s| > 0 && p.score < s[0].score
    requires StrictlyDescending(rest)
    requires p.score in ScoresOf(s[1..]) ==> rest == s[1..]
    requires p.score !in ScoresOf(s[1..]) ==> |rest| == |s| && forall q :: q in rest <==> q in s[1..] || q == p
    ensures StrictlyDescending([s[0]] + rest)
    ensures p.score in ScoresOf(s) ==> [s[0]] + rest == s
    ensures p.score !in ScoresOf(s) ==> |[s[0]] + rest| == |s| + 1 && forall q :: q in [s[0]] + rest <==> q in s || q == p
  {
    var tail := s[1..];
    ScoresOfFirst(s);
    BelowFirst(s, p, rest);
    ConsDescending(s[0], rest);
    if p.score in ScoresOf(tail) {
      assert [s[0]] + rest == s;
    } else {
      ConsMembers(s[0], rest);
      ConsMembers(s[0], tail);
      assert [s[0]] + tail == s;
    }
  }

  /** Whatever follows the first element after the insertion scores below it. */
  lemma BelowFirst(s: seq<Prediction>, p: Prediction, rest: seq<Prediction>)
    requires StrictlyDescending(s) && |s| > 0 && p.score < s[0].score
    requires forall q | q in rest :: q in s[1..] || q == p
    ensures forall q | q in rest :: q.score < s[0].score
  {
    forall q | q in rest ensures q.score < s[0].score {
      if q != p {
        var i :| 0 <= i < |s[1..]| && s[1..][i] == q;
        assert s[i + 1] == q;
      }
    }
  }

  lemma ConsDescending(x: Prediction, rest: seq<Prediction>)
    requires StrictlyDescending(rest)
    requires forall q | q in rest :: q.score < x.score
    ensures StrictlyDescending([x] + rest)
  {
    var r := [x] + rest;
    forall i, j | 0 <= i < j < |r| ensures r[i].score > r[j].score {
      assert r[j] == rest[j - 1] && rest[j - 1] in rest;
      if i > 0 {
        assert r[i] == rest[i - 1];
      }
    }
  }

  lemma ConsMembers(x: Prediction, rest: seq<Prediction>)
    ensures forall q :: q in [x] + rest <==> q == x || q in rest
  {
  }

  /** The scores of a non-empty sequence: the first score, then those of the rest. */
  lemma ScoresOfFirst(s: seq<Prediction>)
    requires |s| > 0
    ensures forall x :: x in ScoresOf(s) <==> x == s[0].score || x in ScoresOf(s[1..])
  {
    var tail := s[1..];
    forall x ensures x in ScoresOf(s) <==> x == s[0].score || x in ScoresOf(tail) {
      if x in ScoresOf(s) && x != s[0].score {
        var i :| 0 <= i < |s| && ScoresOf(s)[i] == x;
        assert ScoresOf(tail)[i - 1] == x;
      }
      if x in ScoresOf(tail) {
        var i :| 0 <= i < |tail| && ScoresOf(tail)[i] == x;
        assert ScoresOf(s)[i + 1] == x;
      }
      assert ScoresOf(s)[0] == s[0].score;
    }
  }

  lemma AddInFront(s: seq<Prediction>, p: Prediction)
    requires StrictlyDescending(s) && |s| > 0 && p.score > s[0].score
    ensures StrictlyDescending([p] + s)
    ensures p.score !in ScoresOf(s)
    ensures forall q :: q in [p] + s <==> q in s || q == p
  {
    assert forall i | 0 <= i < |s| :: s[i].score <= s[0].score;
    var r := [p] + s;
    assert forall i | 0 < i < |r| :: r[i] == s[i - 1];
  }

  /** The scores the listed keys carry. */
  function ScoreSet(keys: seq<Category>, scores: map<Category, real>): set<real>
    requires forall k | k in keys :: k in scores
  {
    if |keys| == 0 then {}
    else ScoreSet(keys[..|keys| - 1], scores) + {scores[keys[|keys| - 1]]}
  }

  /** A score is carried by the listed keys exactly when some listed key has it. */
  lemma {:induction false} ScoreSetMembers(keys: seq<Category>, scores: map<Category, real>, x: real)
    requires forall k | k in keys :: k in scores
    ensures x in ScoreSet(keys, scores) <==> exists k :: k in keys && scores[k] == x
  {
    if |keys| > 0 {
      var prefix := keys[..|keys| - 1];
      ScoreSetMembers(prefix, scores, x);
      assert forall k :: k in keys <==> k in prefix || k == keys[|keys| - 1];
    }
  }

  /**
   The keys that survive a ranking: in iteration order, each key whose score no
   earlier key carries.
   */
  function Representatives(keys: seq<Category>, scores: map<Category, real>): (r: seq<Category>)
    requires forall k | k in keys :: k in scores
    ensures forall k | k in r :: k in keys
    ensures ScoreSet(r, scores) == ScoreSet(keys, scores)
  {
    if |keys| == 0 then []
    else
      var prefix := keys[..|keys| - 1];
      var last := keys[|keys| - 1];
      var previous := Representatives(prefix, scores);
      if scores[last] in ScoreSet(prefix, scores) then previous
      else
        var r := previous + [last];
        assert r[..|r| - 1] == previous;
        r
  }

  /**
   Over distinct keys, the key at position `j` survives exactly when no earlier
   key carries its score.
   */
  lemma {:induction false} RepresentativeIsFirst(keys: seq<Category>, scores: map<Category, real>, j: nat)
    requires forall k | k in keys :: k in scores
    requires Distinct(keys) && j < |keys|
    ensures keys[j] in Representatives(keys, scores) <==> scores[keys[j]] !in ScoreSet(keys[..j], scores)
  {
    var prefix := keys[..|keys| - 1];
    var last := keys[|keys| - 1];
    if j == |keys| - 1 {
      assert keys[..j] == prefix;
      assert last !in prefix;
    } else {
      assert prefix[j] == keys[j] && prefix[..j] == keys[..j];
      assert keys[j] != last;
      RepresentativeIsFirst(prefix, scores, j);
    }
  }

  /**
   Inserting the entries of `keys` in order: the result iterates by strictly
   decreasing score.
   */
  function Insertions(keys: seq<Category>, scores: map<Category, real>): (r: seq<Prediction>)
    requires forall k | k in keys :: k in scores
    ensures StrictlyDescending(r)
  {
    if |keys| == 0 then []
    else Add(Insertions(keys[..|keys| - 1], scores), Prediction(keys[|keys| - 1], scores[keys[|keys| - 1]]))
  }

  /** The insertions carry exactly the listed scores. */
  lemma {:induction false} InsertionsCarryScores(keys: seq<Category>, scores: map<Category, real>)
    requires forall k | k in keys :: k in scores
    ensures forall x :: x in ScoresOf(Insertions(keys, scores)) <==> x in ScoreSet(keys, scores)
  {
    if |keys| > 0 {
      var prefix := keys[..|keys| - 1];
      var p := Prediction(keys[|keys| - 1], scores[keys[|keys| - 1]]);
      InsertionsCarryScores(prefix, scores);
      var previous := Insertions(prefix, scores);
      if p.score !in ScoresOf(previous) {
        var r := Add(previous, p);
        ScoresOfMembers(r);
        ScoresOfMembers(previous);
      }
    }
  }

  /** The insertions hold exactly one prediction per representative key, paired with its score. */
  lemma {:induction false} InsertionsHoldRepresentatives(keys: seq<Category>, scores: map<Category, real>)
    requires forall k | k in keys :: k in scores
    ensures forall q :: q in Insertions(keys, scores) <==>
      q.category in Representatives(keys, scores) && q.score == scores[q.category]
  {
    if |keys| > 0 {
      var prefix := keys[..|keys| - 1];
      var p := Prediction(keys[|keys| - 1], scores[keys[|keys| - 1]]);
      InsertionsHoldRepresentatives(prefix, scores);
      InsertionsCarryScores(prefix, scores);
      var rep := Representatives(prefix, scores);
      if p.score !in ScoreSet(prefix, scores) {
        assert forall k :: k in rep + [p.category] <==> k in rep || k == p.category;
      }
    }
  }

  /** A score occurs in `ScoresOf(s)` exactly when some element carries it. */
  lemma ScoresOfMembers(s: seq<Prediction>)
    ensures forall x :: x in ScoresOf(s) <==> exists q :: q in s && q.score == x
  {
    forall x | x in ScoresOf(s) ensures exists q :: q in s && q.score == x {
      var i :| 0 <= i < |s| && ScoresOf(s)[i] == x;
      assert s[i] in s;
    }
    forall x | (exists q :: q in s && q.score == x) ensures x in ScoresOf(s) {
      var q :| q in s && q.score == x;
      var i :| 0 <= i < |s| && s[i] == q;
      assert ScoresOf(s)[i] == x;
    }
  }

  /** Over a well-formed map, the scores its keys carry are its values. */
  lemma ScoreSetOfMap(m: OrderedMap<Category, real>)
    requires m.Valid()
    ensures ScoreSet(m.keys, m.entries) == m.entries.Values
  {
    forall x ensures x in ScoreSet(m.keys, m.entries) <==> x in m.entries.Values {
      ScoreSetMembers(m.keys, m.entries, x);
    }
  }

  /**
   `toValueSortedPredictions`: one insertion per key, in the map's iteration
   order.  The result iterates by strictly decreasing score, carries exactly the
   map's values, and holds exactly one prediction per surviving key (the first
   key of the iteration order to carry its score), paired with its score.
   */
  function ToValueSortedPredictions(m: OrderedMap<Category, real>): (r: seq<Prediction>)
    requires m.Valid()
    ensures StrictlyDescending(r)
    ensures forall x :: x in ScoresOf(r) <==> x in m.entries.Values
    ensures forall q :: q in r <==> q.category in Representatives(m.keys, m.entries) && q.score == m.entries[q.category]
    ensures m.entries == map[] ==> r == []
  {
    InsertionsCarryScores(m.keys, m.entries);
    InsertionsHoldRepresentatives(m.keys, m.entries);
    ScoreSetOfMap(m);
    Insertions(m.keys, m.entries)
  }

  /** Each distinct score appears exactly once, so the ranking is as long as the number of distinct scores. */
  lemma RankingSizeIsDistinctScores(m: OrderedMap<Category, real>)
    requires m.Valid()
    ensures |ToValueSortedPredictions(m)| == |m.entries.Values|
  {
    CountDistinctScores(ToValueSortedPredictions(m), m.entries.Values);
  }

  /** A strictly descending sequence has one element per score it carries. */
  lemma CountDistinctScores(r: seq<Prediction>, values: set<real>)
    requires StrictlyDescending(r)
    requires forall x :: x in ScoresOf(r) <==> x in values
    ensures |r| == |values|
  {
    var scores := ScoresOf(r);
    DescendingScoresDistinct(r);
    DistinctCardinality(scores);
    var carried := set x | x in scores;
    forall x ensures x in carried <==> x in values {
      assert x in carried <==> x in scores;
    }
    assert carried == values;
  }

  lemma DescendingScoresDistinct(s: seq<Prediction>)
    requires StrictlyDescending(s)
    ensures Distinct(ScoresOf(s))
  {
  }

  /** The ordering example: x:-1.0, y:-0.2, z:-5.0 ranks y, x, z. */
  lemma RankingExample()
    ensures var m := OrderedMap(["x", "y", "z"], map["x" := -1.0, "y" := -0.2, "z" := -5.0]);
      m.Valid() && ToValueSortedPredictions(m) == [Prediction("y", -0.2), Prediction("x", -1.0), Prediction("z", -5.0)]
  {
    var m := OrderedMap(["x", "y", "z"], map["x" := -1.0, "y" := -0.2, "z" := -5.0]);
    var x, y, z := Prediction("x", -1.0), Prediction("y", -0.2), Prediction("z", -5.0);
    ExampleKeysValid();
    InsertionsStep(["x"], m.entries);
    InsertionsStep(["x", "y"], m.entries);
    InsertionsStep(["x", "y", "z"], m.entries);
    ExampleInsertions();
    assert ToValueSortedPredictions(m) == Insertions(m.keys, m.entries);
  }

  lemma ExampleKeysValid()
    ensures OrderedMap(["x", "y", "z"], map["x" := -1.0, "y" := -0.2, "z" := -5.0]).Valid()
  {
    var keys := ["x", "y", "z"];
    assert keys[0] != keys[1] && keys[0] != keys[2] && keys[1] != keys[2] by {
      assert keys[0][0] == 'x' && keys[1][0] == 'y' && keys[2][0] == 'z';
    }
  }

  lemma ExampleInsertions()
    ensures ["x", "y", "z"][..2] == ["x", "y"] && ["x", "y"][..1] == ["x"] && ["x"][..0] == []
    ensures var x, y, z := Prediction("x", -1.0), Prediction("y", -0.2), Prediction("z", -5.0);
      && Insert([], x) == [x]
      && Insert([x], y) == [y, x]
      && Insert([y, x], z) == [y, x, z]
  {
    var x, y, z := Prediction("x", -1.0), Prediction("y", -0.2), Prediction("z", -5.0);
    assert Insert([x], z) == [x] + Insert([], z);
    assert [y, x][1..] == [x] && [x][1..] == [];
  }

  /** One step of the insertion loop, as a tree-set insertion. */
  lemma InsertionsStep(keys: seq<Category>, scores: map<Category, real>)
    requires |keys| > 0 && forall k | k in keys :: k in scores
    ensures var last := keys[|keys| - 1];
      Insertions(keys, scores) == Insert(Insertions(keys[..|keys| - 1], scores), Prediction(last, scores[last]))
  {
  }

  /** A tie collapses: with equal scores only the first key of the iteration order remains. */
  lemma TieCollapseExample()
    ensures var m := OrderedMap(["b", "a"], map["a" := 1.0, "b" := 1.0]);
      m.Valid() && ToValueSortedPredictions(m) == [Prediction("b", 1.0)]
  {
    var m := OrderedMap(["b", "a"], map["a" := 1.0, "b" := 1.0]);
    assert m.keys[..1] == ["b"] && m.keys[..1][..0] == [];
    assert Insertions(["b"], m.entries) == Add([], Prediction("b", 1.0));
  }
}
